=== FILE: README.md ===
# Genogram graph engine in Dafny

This project models the relational graph engine of genogram's `graph` package. It proves properties of that model.

A genogram is a graph of people (nodes) and the relationships between them (edges). Every node keeps three adjacency maps of edge ids:
- `Children`, for child edges leaving it;
- `Parents`, for child edges entering it;
- `Undirected`, for every other relationship, on both of its endpoints.

An edge has:
- an origin and a target;
- a relationship type, such as `married`, `child`, `hostile`, … (the source spells one of them `cohabatiation`);
- a `Directed` flag, a stroke width and a colour. Edge creation sets `Directed` exactly for `child` edges, the width to 2 and the colour from the relationship; an edge loaded from a snapshot takes all three from its record, so a loaded `friend` edge can be directed.

The engine provides these operations:
- edge creation;
- the relationship-to-colour table;
- the incidence query;
- deletion of one node, and recursive deletion of a node's descendants;
- the two-click linking protocol;
- clearing the graph;
- dragging the canvas;
- the node-menu actions "Create Child", "Remove (single)", "Remove (children)" and "Remove (person + all children)";
- the snapshot codec that saves and loads the graph.

## Representation

- **Graph.** `Model.Graph` has these fields:
  - `store`, a map from id to every node object the graph has held. Objects stay in it after they leave the `Nodes` map or the graph is cleared, whether or not anything still reaches them;
  - `nodes`, the key set of the program's `Nodes` map;
  - `edges`, the `Edges` map;
  - `link`, the linking state;
  - `mouse`, the last pointer position.
- **Why `store` exists.**
  - The program works on node pointers, and a deleted node's object can still be written through edges. For example, `DeleteNode` writes into `parent.Target`.
  - The program keys every node under its own id. So a node object is identified with its id, and the `store` entry stands for the object.
- **Edges.** They are immutable once created, so the adjacency maps hold edge values. This matches sharing one pointer.
- **Invariants.** `Model.Consistent` holds when:
  - `Nodes` keys equal node ids;
  - edge endpoints are live;
  - every node's three maps are exactly the edges that touch it (`DerivedChildren`, `DerivedParents`, `DerivedUndirected`).
- **Map iteration order.** Go leaves it unspecified.
  - Where an iteration's effect can depend on the order, the loop is a method that picks the next key with `:|`, and its contract holds for every order. These are `Incidence.GetEdges`, `Codec.KeyList`, `Codec.MarshalGraph` and `Deletion.DeleteAllChildren`, where one child's recursive deletion can remove entries a later iteration would have visited.
  - The other loops are map comprehensions: `DeleteNode`'s three loops, `Dragged`, and the two loops of `UnmarshalJSON`. In each, no iteration reads or removes an entry that another iteration writes, so every order gives the same result.
- **Parameters.** These are passed in instead of being computed:
  - the theme's foreground colour;
  - the label's minimum size (`labelMin`);
  - ids the program draws from `rand`.
- **Numbers.** Positions and sizes are exact `real` values. Colours are RGBA byte quadruples.

## Behaviour worth knowing

- **Edge creation.** `NewGraphEdge` checks neither the edge id nor the endpoints. An edge under an id already in use replaces the old one in the edge table, and `CompleteLinking` inherits this.
- **`DeleteNode` leaves stale ids.**
  - The loop over the node's parents deletes ids from the children map of the edge's target, and that target is the deleted node itself.
  - The loop over the node's undirected edges deletes from the partner's `Children` and `Parents` maps. It never touches the partner's `Undirected` map.
  - So the parent keeps the edge id in `Children`, and the undirected partner keeps it in `Undirected`, after the edge has left the table. `Deletion.DeleteNodeLeavesParentStale` and `Deletion.DeleteNodeLeavesPartnerStale` prove this.
  - Deletion does keep one property. Call a graph filed (`Model.Filed`) when every edge in the table joins two live nodes and both of them file its id. Every consistent graph is filed (`Model.ConsistentFiled`), and deletion keeps a filed graph filed. So no edge left in the table refers to the deleted node (`Deletion.DeleteNodeNoEdgeRefersToN`).
- **Recursive deletion and cycles.** `DeleteAllChildren` keeps no record of visited nodes. It recurses into a child before deleting anything, so a cycle of child edges reachable from the node makes it recurse without end. The model asks for a rank that covers the node and strictly decreases along child edges from every ranked node. A cycle the node cannot reach is allowed (`Deletion.UnreachableCycleAllowed`).
- **Loading.**
  - The graph is cleared before the snapshot is parsed, so a parse failure leaves it cleared (`SyntaxError`).
  - An edge naming a node absent from the snapshot dereferences a nil node (`NilDereference`).
  - Adjacency is rebuilt from each edge record's `Directed` flag. The adjacency lists in the node records are never read.
  - `BoxStrokeColor` is not restored and reverts to the theme foreground.

## Model

| member | source | states |
|---|---|---|
| Style.SelectColor | graph/edge.go:205-223 | each of the five styled relationships maps to its fixed RGBA value; every other string maps to the foreground colour |
| Style.UnstyledKindsUseForeground | graph/edge.go:205-223 | married, child, distant and an unknown relationship all take the foreground colour |
| Edges.NewGraphEdge | graph/edge.go:175-203 | the edge is directed exactly when the relationship is child, has width 2 and the relationship's colour, and replaces whatever was filed under its id; no other edge or node key changes; a child edge is filed in the origin's children and the target's parents and in no undirected map, any other in both endpoints' undirected maps |
| Edges.NewGraphEdgeKeepsConsistent | graph/edge.go:186-198 | with a fresh id and live endpoints, edge creation keeps the adjacency maps equal to the edges touching each node |
| Incidence.GetEdges | graph/graph_widget.go:187-199 | returns exactly the edges whose origin or target is the node, each once, a self-loop included |
| Deletion.DeleteNode | graph/graph_widget.go:201-222 | only the deleted id leaves `Nodes`; edges only leave the table; linking state and pointer are unchanged; node objects only lose adjacency entries |
| Deletion.DeleteNodeRemovesIncidentEdges | graph/graph_widget.go:204-221 | the edge table loses exactly the ids filed in the node's three maps |
| Deletion.DeleteNodeRemovesExactly | graph/graph_widget.go:204-218 | no undirected map changes; a parents entry goes iff the node's children or undirected map file it under an edge aimed at its holder; a children entry goes iff the node's remaining parents or undirected map file it under an edge aimed at its holder |
| Deletion.DeleteNodeLeavesParentStale | graph/graph_widget.go:209-212 | a parent of the deleted node keeps the connecting child id although the edge has left the table |
| Deletion.DeleteNodeLeavesPartnerStale | graph/graph_widget.go:214-219 | an undirected partner keeps the edge id although the edge has left the table, so a consistent graph becomes inconsistent |
| Deletion.DeleteNodeNoEdgeRefersToN | graph/graph_widget.go:204-221 | in a filed graph, no edge left after the deletion starts or ends at the deleted node, every edge left joins two live nodes, and the graph stays filed |
| Deletion.DeleteNodeKeepsChildren | graph/graph_widget.go:204-219 | when the store is coherent on a set of nodes holding the deleted node, no children map of a node in that set changes |
| Deletion.DeleteAllChildren | graph/graph_widget.go:224-234 | when no cycle of child edges is reachable from the node, only its descendants leave `Nodes` and the node itself stays; every edge that leaves the table is one of the node's child edges or is filed by a descendant; a filed graph stays filed, and no edge left touches a removed node; when the nodes it reaches are coherent, every descendant leaves and none of their children maps changes |
| Deletion.UnreachableCycleAllowed | graph/graph_widget.go:224-234 | a cycle of child edges that the node cannot reach leaves the precondition satisfiable |
| Deletion.DeleteChild | graph/graph_widget.go:226-232 | one recursive step removes only the child's target and its descendants, and, when the nodes reached are coherent, all of them; the child edge leaves the table, every other edge that leaves is filed by a descendant, a filed graph stays filed, and no edge left touches a removed node |
| Interaction.StartLinking | graph/graph_widget.go:135-141 | the node and relationship become the pending link, coloured by the relationship, whatever was pending before; the graph is unchanged |
| Interaction.RestartOverwrites | graph/graph_widget.go:135-141 | starting a second link while one is pending gives the same state as starting only the second |
| Interaction.CompleteLinking | graph/graph_widget.go:143-150 | when a link is pending and the target is not the origin, the result is edge creation of origin->target with the pending relationship, followed by idle linking; otherwise nodes and edges are unchanged; linking always ends |
| Interaction.SelfLinkCancels | graph/graph_widget.go:143-150 | completing a link on its own origin changes nothing but ending the link |
| Interaction.StartThenComplete | graph/graph_widget.go:135-150 | start then complete on another node equals creating the edge origin->target of that relationship with linking idle |
| Interaction.StopLinking | graph/graph_widget.go:152-156 | linking ends and nodes, edges and pointer are unchanged |
| Interaction.MouseMoved | graph/graph_widget.go:164-172 | only the pointer moves, and the pending line's free end follows it while linking |
| Interaction.ClearGraph | graph/graph_widget.go:236-240 | both maps become empty and linking ends |
| Interaction.ClearGraphConsistent | graph/graph_widget.go:236-240 | a cleared graph satisfies the invariants |
| Interaction.Dragged | graph/graph_widget.go:127-133 | every live node is displaced by the same delta; edges, removed nodes and linking are unchanged |
| Interaction.DraggedKeepsConsistent | graph/graph_widget.go:127-133 | dragging preserves the invariants |
| Interaction.CanvasMouseDown | graph/graph_widget.go:47-52 | a primary press on the canvas ends linking and changes nothing else |
| Interaction.NodeMouseUp | graph/node.go:131-136 | a primary release on a node is exactly completing the link onto it; any other release changes nothing |
| Nodes.NewGraphNode | graph/node.go:232-254 | a new node has the given id, a 50x50 inner size, padding 10, stroke width 1, handle stroke 3, the theme's colours and no adjacency |
| Nodes.AddNode | graph/node.go:262 | the node is filed under its own id and becomes live; no other stored node, edge, linking state or pointer changes |
| Nodes.AddNodeKeepsConsistent | graph/node.go:261-262 | filing a fresh node without edges keeps the invariants |
| Nodes.Displace | graph/node.go:365-367 | only the position changes, by the delta |
| Nodes.BoxSize | graph/node.go:373-381 | each box side is the larger of the inner size and the label minimum, plus twice the padding |
| Geometry.Max | graph/node.go:327-329 | the componentwise maximum is at least both sizes and equals one of them in each dimension |
| Codec.MarshalEdge | graph/edge.go:70-83 | the record carries the edge's id, origin and target ids, type, directed flag, colour and width, and loading it under that id gives the same edge |
| Codec.KeyList | graph/node.go:116-126 | lists every key of an adjacency map exactly once, in some order |
| Codec.MarshalNode | graph/node.go:102-129 | the node record copies every field and lists each adjacency map's keys once |
| Codec.MarshalGraph | graph/graph_widget.go:242-253 | the snapshot has one node record per `Nodes` key and one edge record per `Edges` key |
| Codec.UnmarshalGraph | graph/graph_widget.go:255-320 | an unparsable snapshot leaves the cleared graph; a dangling edge endpoint dereferences nil; otherwise the cleared graph is rebuilt from the snapshot |
| Codec.Rebuild | graph/graph_widget.go:269-315 | the loaded maps have exactly the snapshot's keys; each loaded edge has its key as id and its record's endpoints, type, directed flag, colour and width; each loaded node has its key as id and its record's position, sizes, padding and style, except the stroke colour, which is the theme foreground; other stored objects are kept |
| Codec.RebuildFilesByDirectedFlag | graph/graph_widget.go:300-307 | a loaded node's children, parents and undirected maps hold exactly the snapshot edges that its records' directed flags and endpoints assign to it |
| Codec.RebuildConsistent | graph/graph_widget.go:287-312 | a loaded graph satisfies the invariants, since adjacency is derived from each edge's directed flag |
| Codec.UnmarshalIgnoresAdjacencyLists | graph/graph_widget.go:269-307 | two snapshots that differ only in their nodes' adjacency lists load identically |
| Codec.EdgesRestored | graph/graph_widget.go:287-312 | loading the snapshot of a consistent graph restores its edge table exactly |
| Codec.RoundTrip | graph/graph_widget.go:242-320 | saving then loading a consistent graph gives back the same nodes, edges and adjacency; only stroke colour and label minimum revert, and linking ends |
| NodeMenu.CreateChild | graph/node.go:256-274 | a new node is filed below the parent by its height plus 50 and joined to it by a child edge parent->child of width 2 in the foreground colour, filed in the parent's children and the child's parents; the new node is the default node with only that parent entry, the parent gains only that child entry, and no other edge, stored node, linking state or pointer changes |
| NodeMenu.CreateChildKeepsConsistent | graph/node.go:256-274 | creating a child under fresh ids keeps the invariants |
| NodeMenu.RemoveChildren | graph/node.go:297-302 | no edge is added, node objects only lose adjacency entries, and linking and pointer are unchanged; the node stays as live as it was and every removed node is a descendant; when the nodes it reaches are coherent, every descendant is gone; a filed graph stays filed with no edge touching a removed node; in a consistent graph, an edge stays exactly when both of its endpoints stay |
| NodeMenu.RemoveWithChildren | graph/node.go:304-311 | no edge is added, node objects only lose adjacency entries, and linking and pointer are unchanged; the node leaves `Nodes` and every removed node is it or a descendant; when the nodes it reaches are coherent, every descendant is gone; every edge that leaves the table is filed by the node or a descendant; a filed graph stays filed with no edge touching a removed node; in a consistent graph, an edge stays exactly when both of its endpoints stay |

"Remove (single)" (graph/node.go:290-295) calls `Deletion.DeleteNode` and nothing else. "Link Child" and "Link Hostile" call `Interaction.StartLinking` and nothing else.

## Left out

- Fyne widget and renderer machinery is not modelled because it is UI plumbing. This covers renderers, `Refresh`, `Layout`, `Objects`, cursors, popup menus, the canvas's own right-click position, and hover colour changes in `MouseIn`/`MouseOut`.
- Edge anchor geometry is not modelled. This covers `R2Line`, `R2Box.Intersect`, `Center`, and the start point of the pending link line. It lives in an external geometry library that is not part of this model, and it is float64 arithmetic.
- Float32 rounding is not modelled: positions and sizes are exact reals.
- The JSON byte format is not modelled. The codec works on serialised records, and a parse failure is an absent snapshot.
- Theme colour lookups, the label's minimum size and `rand` ids are parameters, because they come from outside the package.
- `log` calls are left out because they have no effect on the graph.
- main.go is not part of this model. It covers the window, the toolbar and file reading and writing. Its "New" and "Add Parents" actions only compose `NewGraphNode`, the `Nodes` insertion (`Nodes.AddNode`) and `NewGraphEdge`.
- renderer.cpp is not part of this model. It is an unrelated C++ editor demo.
- The pending relationship is left out after `StopLinking` because nothing reads it before the next `StartLinking`.
- Node objects are identified by id. Two distinct node objects with the same random id would be conflated.
- Deletion.DeleteAllChildren: is weaker than the program in two ways.
  - Termination needs a rank over the nodes reachable from the node that decreases along child edges. A reachable cycle makes the program recurse without end, with one exception: in an incoherent store, an earlier sibling's deletion can cut a reachable cycle first. The model does not cover that case.
  - Removal of every descendant is stated only when the ranked nodes are coherent (`Model.Tidy`: every edge record is filed where it points, and one id names one record among those nodes). Otherwise only soundness is proved: nothing but descendants is removed.
  - The exact edge statement (an edge stays exactly when both endpoints stay) is proved for the menu actions on consistent graphs whose ranked nodes are live (`NodeMenu.RemoveChildren`, `NodeMenu.RemoveWithChildren`). The recursive methods themselves state only its two halves: a removed edge is filed at or below the node, and no edge left touches a removed node.
- Deletion.DeleteChild: carries the same conditions, being one step of `DeleteAllChildren`.
- NodeMenu.RemoveChildren: inherits the same rank and coherence conditions.
- NodeMenu.RemoveWithChildren: inherits the same rank and coherence conditions.
- Nodes.BoxSize: states only the size of the box. Where it is drawn (the inner position) is rendering.

=== FILE: codec.dfy ===
/** The snapshot codec: converting the graph to and from the records the
    program serialises (one record per node, one per edge). The byte-level
    JSON encoding is not modelled; a snapshot that failed to parse is `None`. */
module Codec {
  import opened Geometry
  import opened Style
  import opened Model
  import opened Nodes
  import opened Interaction

  datatype Option<T> = None | Some(value: T)

  datatype SerialisedEdge = SerialisedEdge(
    id: string,
    origin: string,
    target: string,
    rel: string,
    directed: bool,
    color: RGBA,
    width: real)

  datatype SerialisedNode = SerialisedNode(
    id: string,
    size: Size,
    position: Vec,
    innerSize: Size,
    padding: real,
    boxStrokeWidth: real,
    boxFillColor: RGBA,
    boxStrokeColor: RGBA,
    handleColor: RGBA,
    handleStroke: real,
    children: seq<string>,
    parents: seq<string>,
    undirected: seq<string>)

  datatype Snapshot = Snapshot(nodes: map<string, SerialisedNode>, edges: map<string, SerialisedEdge>)

  /** The outcome of loading a snapshot. A snapshot that does not parse is
      reported after the graph has already been cleared; an edge naming a node
      the snapshot lacks makes the program dereference a nil node. */
  datatype LoadResult =
    | Loaded(graph: Graph)
    | SyntaxError(cleared: Graph)
    | NilDereference

  /** The record an edge is serialised to: every field is copied, so loading
      the record under the edge's id gives the same edge back. */
  function MarshalEdge(e: GraphEdge): (se: SerialisedEdge)
    ensures se.id == e.id && EdgeLoadedFrom(e, e.id, se)
    ensures UnmarshalEdge(se.id, se) == e
  {
    SerialisedEdge(e.id, e.origin, e.target, e.rel, e.directed, e.color, e.width)
  }

  /** The edge rebuilt from the record filed under `id`; the record's own id is not read. */
  function UnmarshalEdge(id: string, se: SerialisedEdge): GraphEdge
  {
    GraphEdge(id, se.origin, se.target, se.rel, se.directed, se.width, se.color)
  }

  predicate Distinct(l: seq<string>)
  {
    forall i, j | 0 <= i < j < |l| :: l[i] != l[j]
  }

  /** `l` lists the keys of `m` once each, in some order. */
  predicate ListsKeys(l: seq<string>, m: map<string, GraphEdge>)
  {
    Distinct(l) && (forall k | k in l :: k in m) && (forall k | k in m :: k in l)
  }

  /** The keys of an adjacency map, in map iteration order (unspecified). */
  method KeyList(m: map<string, GraphEdge>) returns (l: seq<string>)
    ensures ListsKeys(l, m)
  {
    l := [];
    var rest := m.Keys;
    while rest != {}
      invariant rest <= m.Keys
      invariant Distinct(l)
      invariant forall k :: k in l <==> k in m && k !in rest
      decreases rest
    {
      var k :| k in rest;
      l := l + [k];
      rest := rest - {k};
    }
  }

  /** `sn` is what node `w` serialises to: every field copied, adjacency as key lists. */
  predicate NodeSnapshotOf(w: GraphNode, sn: SerialisedNode)
  {
    && sn.id == w.id && sn.size == w.size && sn.position == w.position
    && sn.innerSize == w.innerSize && sn.padding == w.padding
    && sn.boxStrokeWidth == w.boxStrokeWidth && sn.boxFillColor == w.boxFillColor
    && sn.boxStrokeColor == w.boxStrokeColor && sn.handleColor == w.handleColor
    && sn.handleStroke == w.handleStroke
    && ListsKeys(sn.children, w.children)
    && ListsKeys(sn.parents, w.parents)
    && ListsKeys(sn.undirected, w.undirected)
  }

  /** `snap` is what graph `g` serialises to: one record per `Nodes` key and
      per `Edges` key. */
  predicate SnapshotOf(g: Graph, snap: Snapshot)
    requires g.nodes <= g.store.Keys
  {
    && snap.nodes.Keys == g.nodes
    && (forall k | k in g.nodes :: NodeSnapshotOf(g.store[k], snap.nodes[k]))
    && snap.edges == map k | k in g.edges :: MarshalEdge(g.edges[k])
  }

  method MarshalNode(w: GraphNode) returns (sn: SerialisedNode)
    ensures NodeSnapshotOf(w, sn)
  {
    var children := KeyList(w.children);
    var undirected := KeyList(w.undirected);
    var parents := KeyList(w.parents);
    sn := SerialisedNode(w.id, w.size, w.position, w.innerSize, w.padding, w.boxStrokeWidth,
                         w.boxFillColor, w.boxStrokeColor, w.handleColor, w.handleStroke,
                         children, parents, undirected);
  }

  /** Serialises the `Nodes` and `Edges` maps. */
  method MarshalGraph(g: Graph) returns (snap: Snapshot)
    requires g.nodes <= g.store.Keys
    ensures SnapshotOf(g, snap)
  {
    var out: map<string, SerialisedNode> := map[];
    var rest := g.nodes;
    while rest != {}
      invariant rest <= g.nodes
      invariant out.Keys == g.nodes - rest
      invariant forall k | k in out :: NodeSnapshotOf(g.store[k], out[k])
      decreases rest
    {
      var k :| k in rest;
      var sn := MarshalNode(g.store[k]);
      out := out[k := sn];
      rest := rest - {k};
    }
    snap := Snapshot(out, map k | k in g.edges :: MarshalEdge(g.edges[k]));
  }

  /** Some edge record names an origin or target the snapshot has no node for. */
  predicate Dangling(snap: Snapshot)
  {
    exists k | k in snap.edges :: snap.edges[k].origin !in snap.nodes || snap.edges[k].target !in snap.nodes
  }

  /** The node rebuilt from the record filed under `k`: a new default node
      with the record's sizes, padding and style copied except the box stroke
      colour, and adjacency taken from the rebuilt edge table. */
  function RestoreNode(k: string, sn: SerialisedNode, theme: Theme, innerMin: Size,
                       edges: map<string, GraphEdge>): GraphNode
  {
    NewGraphNode(k, innerMin, theme).(
      innerSize := sn.innerSize, padding := sn.padding, boxStrokeWidth := sn.boxStrokeWidth,
      boxFillColor := sn.boxFillColor, handleColor := sn.handleColor, handleStroke := sn.handleStroke,
      size := sn.size, position := sn.position,
      children := DerivedChildren(edges, k), parents := DerivedParents(edges, k),
      undirected := DerivedUndirected(edges, k))
  }

  /** Loads a snapshot into `g`: the graph is cleared first, even when the
      snapshot then fails to parse; a dangling edge reference ends the load
      in a nil dereference; otherwise the graph is rebuilt from the records. */
  function UnmarshalGraph(g: Graph, parsed: Option<Snapshot>, theme: Theme, labelMin: string -> Size): (r: LoadResult)
    ensures parsed.None? ==> r.SyntaxError? && r.cleared == ClearGraph(g)
    ensures parsed.Some? && Dangling(parsed.value) ==> r.NilDereference?
    ensures parsed.Some? && !Dangling(parsed.value) ==> r == Loaded(Rebuild(ClearGraph(g), parsed.value, theme, labelMin))
  {
    var cleared := ClearGraph(g);
    if parsed.None? then SyntaxError(cleared)
    else if Dangling(parsed.value) then NilDereference
    else Loaded(Rebuild(cleared, parsed.value, theme, labelMin))
  }

  /** The edge table rebuilt from a snapshot. */
  function RebuildEdges(snap: Snapshot): map<string, GraphEdge>
  {
    map k | k in snap.edges :: UnmarshalEdge(k, snap.edges[k])
  }

  /** The node map a snapshot's node records are rebuilt as. */
  function RebuildNodes(snap: Snapshot, theme: Theme, labelMin: string -> Size): map<string, GraphNode>
  {
    map k | k in snap.nodes :: RestoreNode(k, snap.nodes[k], theme, labelMin(k), RebuildEdges(snap))
  }

  /** The graph a parsed, non-dangling snapshot is loaded as: one new node
      per node key and one edge per edge key, each edge filed on its
      endpoints by its directed flag (not its relationship), the new maps
      replacing the old. The adjacency lists in the snapshot are never read.
      `labelMin` gives the minimum size of the label showing a node's id. */
  function Rebuild(cleared: Graph, snap: Snapshot, theme: Theme, labelMin: string -> Size): (r: Graph)
    requires !Dangling(snap)
    ensures r.nodes == snap.nodes.Keys && r.edges.Keys == snap.edges.Keys
    ensures r.link == cleared.link && r.mouse == cleared.mouse
    ensures forall k | k in snap.edges :: EdgeLoadedFrom(r.edges[k], k, snap.edges[k])
    ensures forall k | k in snap.nodes :: k in r.store && NodeLoadedFrom(r.store[k], k, snap.nodes[k], theme, labelMin(k))
    ensures forall k | k in cleared.store && k !in snap.nodes :: k in r.store && r.store[k] == cleared.store[k]
  {
    cleared.(store := cleared.store + RebuildNodes(snap, theme, labelMin), nodes := snap.nodes.Keys,
             edges := RebuildEdges(snap))
  }

  /** `e` is the edge loaded from the record `se` filed under `k`: the key is
      its id, every other field is the record's. */
  predicate EdgeLoadedFrom(e: GraphEdge, k: string, se: SerialisedEdge)
  {
    && e.id == k && e.origin == se.origin && e.target == se.target && e.rel == se.rel
    && e.directed == se.directed && e.width == se.width && e.color == se.color
  }

  /** `w` is the node loaded from the record `sn` filed under `k`: the key is
      its id, position, sizes, padding and style come from the record, except
      the box stroke colour, which is the theme's foreground; `innerMin` is the
      minimum size of its new label. */
  predicate NodeLoadedFrom(w: GraphNode, k: string, sn: SerialisedNode, theme: Theme, innerMin: Size)
  {
    && w.id == k && w.position == sn.position && w.size == sn.size
    && w.innerSize == sn.innerSize && w.innerMin == innerMin && w.padding == sn.padding
    && w.boxStrokeWidth == sn.boxStrokeWidth && w.boxFillColor == sn.boxFillColor
    && w.boxStrokeColor == theme.foreground
    && w.handleColor == sn.handleColor && w.handleStroke == sn.handleStroke
  }

  /** A loaded node files exactly the snapshot's edges at it, by each record's
      directed flag: a directed record in the origin's children and the
      target's parents, any other in both endpoints' undirected maps. */
  lemma RebuildFilesByDirectedFlag(cleared: Graph, snap: Snapshot, theme: Theme, labelMin: string -> Size, k: string)
    requires !Dangling(snap) && k in snap.nodes
    ensures var w := Rebuild(cleared, snap, theme, labelMin).store[k];
      && w.children.Keys == (set id | id in snap.edges && snap.edges[id].directed && snap.edges[id].origin == k)
      && w.parents.Keys == (set id | id in snap.edges && snap.edges[id].directed && snap.edges[id].target == k)
      && w.undirected.Keys == (set id | id in snap.edges && !snap.edges[id].directed &&
                                        (snap.edges[id].origin == k || snap.edges[id].target == k))
  {
    var edges := RebuildEdges(snap);
    assert Rebuild(cleared, snap, theme, labelMin).store[k] == RestoreNode(k, snap.nodes[k], theme, labelMin(k), edges);
    RebuiltEdgesFileByFlag(snap, k);
  }

  /** The maps derived from the rebuilt edge table select records by their
      directed flag and endpoints. */
  lemma RebuiltEdgesFileByFlag(snap: Snapshot, k: string)
    ensures DerivedChildren(RebuildEdges(snap), k).Keys ==
      (set id | id in snap.edges && snap.edges[id].directed && snap.edges[id].origin == k)
    ensures DerivedParents(RebuildEdges(snap), k).Keys ==
      (set id | id in snap.edges && snap.edges[id].directed && snap.edges[id].target == k)
    ensures DerivedUndirected(RebuildEdges(snap), k).Keys ==
      (set id | id in snap.edges && !snap.edges[id].directed && (snap.edges[id].origin == k || snap.edges[id].target == k))
  {
  }

  /** A loaded graph satisfies the graph invariants, whatever adjacency lists
      the snapshot carried. */
  lemma RebuildConsistent(cleared: Graph, snap: Snapshot, theme: Theme, labelMin: string -> Size)
    requires !Dangling(snap)
    ensures Consistent(Rebuild(cleared, snap, theme, labelMin))
  {
    var r := Rebuild(cleared, snap, theme, labelMin);
    var edges := RebuildEdges(snap);
    assert r.edges == edges;
    forall k | k in r.nodes
      ensures k in r.store && r.store[k] == RestoreNode(k, snap.nodes[k], theme, labelMin(k), edges)
    {
      assert k in RebuildNodes(snap, theme, labelMin);
    }
    forall k | k in r.edges
      ensures r.edges[k].id == k && r.edges[k].origin in r.nodes && r.edges[k].target in r.nodes
    {
      assert r.edges[k] == UnmarshalEdge(k, snap.edges[k]);
    }
  }

  /** Loading never reads the node records' adjacency lists: two snapshots
      that differ only there load alike. */
  lemma UnmarshalIgnoresAdjacencyLists(cleared: Graph, s1: Snapshot, s2: Snapshot, theme: Theme, labelMin: string -> Size)
    requires !Dangling(s1)
    requires s1.edges == s2.edges && s1.nodes.Keys == s2.nodes.Keys
    requires forall k | k in s1.nodes ::
      s1.nodes[k].(children := [], parents := [], undirected := []) ==
      s2.nodes[k].(children := [], parents := [], undirected := [])
    ensures !Dangling(s2)
    ensures Rebuild(cleared, s1, theme, labelMin) == Rebuild(cleared, s2, theme, labelMin)
  {
    SameNodesRebuildAlike(s1, s2, theme, labelMin);
    assert RebuildEdges(s2) == RebuildEdges(s1);
  }

  lemma SameNodesRebuildAlike(s1: Snapshot, s2: Snapshot, theme: Theme, labelMin: string -> Size)
    requires s1.edges == s2.edges && s1.nodes.Keys == s2.nodes.Keys
    requires forall k | k in s1.nodes ::
      s1.nodes[k].(children := [], parents := [], undirected := []) ==
      s2.nodes[k].(children := [], parents := [], undirected := [])
    ensures RebuildNodes(s1, theme, labelMin) == RebuildNodes(s2, theme, labelMin)
  {
    var edges := RebuildEdges(s1);
    assert RebuildEdges(s2) == edges;
    forall k | k in s1.nodes
      ensures RestoreNode(k, s1.nodes[k], theme, labelMin(k), edges) == RestoreNode(k, s2.nodes[k], theme, labelMin(k), edges)
    {
      var a := s1.nodes[k].(children := [], parents := [], undirected := []);
      assert a.innerSize == s1.nodes[k].innerSize == s2.nodes[k].innerSize;
    }
  }

  /** Saving and loading a consistent graph restores it: the same node ids,
      every node's position, sizes, padding and style except the box stroke
      colour (which reverts to the theme foreground), every edge unchanged,
      and the same adjacency; linking ends. Node objects that are no longer
      in the `Nodes` map are left as they were. */
  lemma RoundTrip(g: Graph, snap: Snapshot, theme: Theme, labelMin: string -> Size)
    requires Consistent(g)
    requires SnapshotOf(g, snap)
    ensures UnmarshalGraph(g, Some(snap), theme, labelMin) ==
      Loaded(g.(store := g.store + map k | k in g.nodes ::
                  g.store[k].(boxStrokeColor := theme.foreground, innerMin := labelMin(k)),
                link := Idle))
  {
    EdgesRestored(g, snap);
    NodesRestored(g, snap, theme, labelMin);
    assert Rebuild(ClearGraph(g), snap, theme, labelMin).store == g.store + RebuildNodes(snap, theme, labelMin);
  }

  lemma EdgesRestored(g: Graph, snap: Snapshot)
    requires Consistent(g) && SnapshotOf(g, snap)
    ensures RebuildEdges(snap) == g.edges
    ensures !Dangling(snap)
  {
    var edges := RebuildEdges(snap);
    forall k | k in g.edges ensures edges[k] == g.edges[k] {
      assert snap.edges[k] == MarshalEdge(g.edges[k]);
    }
  }

  lemma NodesRestored(g: Graph, snap: Snapshot, theme: Theme, labelMin: string -> Size)
    requires Consistent(g) && SnapshotOf(g, snap)
    ensures RebuildNodes(snap, theme, labelMin) ==
      map k | k in g.nodes :: g.store[k].(boxStrokeColor := theme.foreground, innerMin := labelMin(k))
  {
    EdgesRestored(g, snap);
    forall k | k in g.nodes
      ensures RebuildNodes(snap, theme, labelMin)[k] ==
              g.store[k].(boxStrokeColor := theme.foreground, innerMin := labelMin(k))
    {
      RestoredNodeMatches(g, snap, theme, labelMin(k), k);
    }
  }

  lemma RestoredNodeMatches(g: Graph, snap: Snapshot, theme: Theme, innerMin: Size, k: string)
    requires Consistent(g) && SnapshotOf(g, snap) && k in g.nodes
    ensures RestoreNode(k, snap.nodes[k], theme, innerMin, g.edges) ==
            g.store[k].(boxStrokeColor := theme.foreground, innerMin := innerMin)
  {
    assert NodeSnapshotOf(g.store[k], snap.nodes[k]);
    assert g.store[k].id == k;
  }
}

=== FILE: deletion.dfy ===
/** Single-node deletion and recursive deletion of a node's descendants. */
module Deletion {
  import opened Model

  /** Drops from `m` every id that `via` files under an edge whose target is `x`. */
  function Unlink(m: map<string, GraphEdge>, via: map<string, GraphEdge>, x: string): map<string, GraphEdge>
  {
    map id | id in m && !Targets(via, id, x) :: m[id]
  }

  /** `via` files `id` under an edge whose target is `x`. */
  predicate Targets(via: map<string, GraphEdge>, id: string, x: string)
  {
    id in via && via[id].target == x
  }

  /** Deletes node `n` as the program does. Three passes run in turn:
      - for each edge filed in n's children, the id is dropped from the
        parents of that edge's target;
      - for each edge still filed in n's parents, the id is dropped from the
        children of that edge's target, which is normally n itself;
      - for each edge filed in n's undirected map, the id is dropped from the
        children and the parents of that edge's target.
      Every id visited is removed from the edge table, and n from the
      `Nodes` map. Each pass only removes keys from maps it does not iterate,
      so the order in which a pass visits its map does not matter. */
  function DeleteNode(g: Graph, n: string): (r: Graph)
    requires n in g.store
    ensures r.nodes == g.nodes - {n}
    ensures SubMap(r.edges, g.edges)
    ensures r.link == g.link && r.mouse == g.mouse
    ensures Shrinks(g.store, r.store)
  {
    var c := g.store[n].children;
    var s1 := DropFromParents(g.store, c);
    var p := s1[n].parents;
    var s2 := DropFromChildren(s1, p);
    var u := s2[n].undirected;
    var s3 := DropFromBoth(s2, u);
    ShrinksTransitive(g.store, s1, s2);
    ShrinksTransitive(g.store, s2, s3);
    g.(store := s3, nodes := g.nodes - {n}, edges := g.edges - c.Keys - p.Keys - u.Keys)
  }

  /** `DeleteNode` removes from the edge table exactly the ids n files in
      its three maps. */
  lemma DeleteNodeRemovesIncidentEdges(g: Graph, n: string)
    requires n in g.store
    ensures DeleteNode(g, n).edges.Keys == g.edges.Keys - Incident(g.store[n])
  {
    var c := g.store[n].children;
    var s1 := DropFromParents(g.store, c);
    var p := s1[n].parents;
    var u := DropFromChildren(s1, p)[n].undirected;
    assert DeleteNode(g, n).edges == g.edges - c.Keys - p.Keys - u.Keys;
    assert u == g.store[n].undirected;
    assert p.Keys <= g.store[n].parents.Keys;
    assert forall id | id in g.store[n].parents && id !in p :: id in c;
    ThreePassKeys(g.edges, c.Keys, p.Keys, g.store[n].parents.Keys, u.Keys);
  }

  /** The ids the three passes drop from the table: those of n's children, of
      what its parents map still holds, and of its undirected map, which are
      all of n's ids since the first pass drops from n's parents only ids of
      its children. */
  lemma ThreePassKeys(e: map<string, GraphEdge>, c: set<string>, p: set<string>, parents: set<string>, u: set<string>)
    requires p <= parents && parents - p <= c
    ensures (e - c - p - u).Keys == e.Keys - (c + parents + u)
  {
  }

  /** Which adjacency entries `DeleteNode` removes: a parents entry goes
      exactly when n's children or n's undirected map file that id under an
      edge targeting its holder; a children entry goes exactly when n's
      parents (less those ids the first pass already dropped from n) or n's
      undirected map file it under an edge targeting its holder. No other
      entry anywhere is removed. */
  lemma DeleteNodeRemovesExactly(g: Graph, n: string)
    requires n in g.store
    ensures forall x | x in g.store :: DeleteNode(g, n).store[x].undirected == g.store[x].undirected
    ensures forall x, id | x in g.store && id in g.store[x].parents ::
      (id in DeleteNode(g, n).store[x].parents <==>
         !Targets(g.store[n].children, id, x) && !Targets(g.store[n].undirected, id, x))
    ensures forall x, id | x in g.store && id in g.store[x].children ::
      (id in DeleteNode(g, n).store[x].children <==>
         !(Targets(g.store[n].parents, id, x) && !Targets(g.store[n].children, id, n))
         && !Targets(g.store[n].undirected, id, x))
  {
    var c := g.store[n].children;
    var s1 := DropFromParents(g.store, c);
    var p := s1[n].parents;
    var s2 := DropFromChildren(s1, p);
    var u := s2[n].undirected;
    var s3 := DropFromBoth(s2, u);
    assert DeleteNode(g, n).store == s3;
    assert u == g.store[n].undirected;
    forall x, id | x in g.store && id in g.store[x].children
      ensures id in s3[x].children <==>
         !(Targets(g.store[n].parents, id, x) && !Targets(c, id, n)) && !Targets(u, id, x)
    {
      assert Targets(p, id, x) <==> Targets(g.store[n].parents, id, x) && !Targets(c, id, n);
    }
  }

  /** First pass: each node drops from its parents the ids `via` files under
      edges targeting it. */
  function DropFromParents(s: map<string, GraphNode>, via: map<string, GraphEdge>): (t: map<string, GraphNode>)
    ensures Shrinks(s, t)
    ensures forall x | x in s :: t[x].children == s[x].children && t[x].undirected == s[x].undirected
    ensures forall x, id | x in s && id in s[x].parents :: (id in t[x].parents <==> !Targets(via, id, x))
  {
    map x | x in s :: s[x].(parents := Unlink(s[x].parents, via, x))
  }

  /** Second pass: each node drops from its children the ids `via` files under
      edges targeting it. */
  function DropFromChildren(s: map<string, GraphNode>, via: map<string, GraphEdge>): (t: map<string, GraphNode>)
    ensures Shrinks(s, t)
    ensures forall x | x in s :: t[x].parents == s[x].parents && t[x].undirected == s[x].undirected
    ensures forall x, id | x in s && id in s[x].children :: (id in t[x].children <==> !Targets(via, id, x))
  {
    map x | x in s :: s[x].(children := Unlink(s[x].children, via, x))
  }

  /** Third pass: each node drops from both its children and its parents the
      ids `via` files under edges targeting it. */
  function DropFromBoth(s: map<string, GraphNode>, via: map<string, GraphEdge>): (t: map<string, GraphNode>)
    ensures Shrinks(s, t)
    ensures forall x | x in s :: t[x].undirected == s[x].undirected
    ensures forall x, id | x in s && id in s[x].children :: (id in t[x].children <==> !Targets(via, id, x))
    ensures forall x, id | x in s && id in s[x].parents :: (id in t[x].parents <==> !Targets(via, id, x))
  {
    map x | x in s :: s[x].(children := Unlink(s[x].children, via, x), parents := Unlink(s[x].parents, via, x))
  }

  /** What deletion does keep: when every table edge is filed by both of its
      endpoints, as in every consistent graph (`Model.ConsistentFiled`), after
      deleting `n` no edge left in the table starts or ends at `n`, every edge
      left joins two live nodes, and the graph is still filed. */
  lemma DeleteNodeNoEdgeRefersToN(g: Graph, n: string)
    requires Filed(g) && n in g.store
    ensures forall k | k in DeleteNode(g, n).edges ::
      && DeleteNode(g, n).edges[k].origin != n && DeleteNode(g, n).edges[k].target != n
      && DeleteNode(g, n).edges[k].origin in DeleteNode(g, n).nodes
      && DeleteNode(g, n).edges[k].target in DeleteNode(g, n).nodes
    ensures Filed(DeleteNode(g, n))
  {
    DeleteNodeDropsLeaveTable(g, n);
    FiledAfterDelete(g, n, DeleteNode(g, n));
  }

  /** Every id `DeleteNode` drops from some map also leaves the table, and
      the ids leaving the table are those `n` files. */
  lemma DeleteNodeDropsLeaveTable(g: Graph, n: string)
    requires n in g.store
    ensures DropsLeaveTable(g, DeleteNode(g, n))
    ensures DeleteNode(g, n).edges.Keys == g.edges.Keys - Incident(g.store[n])
  {
    DeleteNodeRemovesExactly(g, n);
    DeleteNodeRemovesIncidentEdges(g, n);
  }

  /** The filing step of `DeleteNodeNoEdgeRefersToN`, on an abstract result. */
  lemma FiledAfterDelete(g: Graph, n: string, r: Graph)
    requires Filed(g) && n in g.store
    requires r.nodes == g.nodes - {n} && SubMap(r.edges, g.edges) && r.store.Keys == g.store.Keys
    requires r.edges.Keys == g.edges.Keys - Incident(g.store[n])
    requires DropsLeaveTable(g, r)
    ensures forall k | k in r.edges ::
      && r.edges[k].origin != n && r.edges[k].target != n
      && r.edges[k].origin in r.nodes && r.edges[k].target in r.nodes
    ensures Filed(r)
  {
    forall k | k in r.edges
      ensures r.edges[k].origin != n && r.edges[k].target != n
      ensures r.edges[k].origin in r.nodes && r.edges[k].target in r.nodes
      ensures k in Incident(r.store[r.edges[k].origin]) && k in Incident(r.store[r.edges[k].target])
    {
      EndStaysFiled(g, n, r, k, g.edges[k].origin);
      EndStaysFiled(g, n, r, k, g.edges[k].target);
    }
  }

  /** One endpoint of one edge left after deleting `n`. */
  lemma EndStaysFiled(g: Graph, n: string, r: Graph, k: string, x: string)
    requires x in g.nodes && g.nodes <= g.store.Keys && k in Incident(g.store[x])
    requires r.nodes == g.nodes - {n} && r.store.Keys == g.store.Keys
    requires k in r.edges && n in g.store && k !in Incident(g.store[n])
    requires DropsLeaveTable(g, r)
    ensures x != n && x in r.nodes && k in Incident(r.store[x])
  {
  }

  /** As written, deleting a node leaves the ids of its incoming child edges
      in the parents' children maps, although those edges leave the table:
      the second pass drops ids from the children of the edge's target, which
      is the deleted node itself. */
  lemma DeleteNodeLeavesParentStale(g: Graph, n: string, id: string)
    requires n in g.store && Tidy(g.store, {n})
    requires id in g.store[n].parents
    requires g.store[n].parents[id].origin in g.store && g.store[n].parents[id].origin != n
    requires id in g.store[g.store[n].parents[id].origin].children
    ensures id in DeleteNode(g, n).store[g.store[n].parents[id].origin].children
    ensures id !in DeleteNode(g, n).edges
  {
    var e := g.store[n].parents[id];
    var p := e.origin;
    DeleteNodeRemovesExactly(g, n);
    DeleteNodeRemovesIncidentEdges(g, n);
    assert Holds(g.store[n], id, e);
    if id in g.store[n].undirected {
      assert Holds(g.store[n], id, g.store[n].undirected[id]);
    }
    assert !Targets(g.store[n].parents, id, p);
    assert !Targets(g.store[n].undirected, id, p);
  }

  /** As written, deleting one endpoint of an undirected edge leaves its id in
      the other endpoint's undirected map while the edge leaves the table, so
      a consistent graph does not stay consistent. */
  lemma DeleteNodeLeavesPartnerStale(g: Graph, n: string, id: string, p: string)
    requires Consistent(g) && n in g.nodes
    requires id in g.store[n].undirected
    requires p != n && (g.store[n].undirected[id].origin == p || g.store[n].undirected[id].target == p)
    ensures p in DeleteNode(g, n).nodes
    ensures id in DeleteNode(g, n).store[p].undirected
    ensures id !in DeleteNode(g, n).edges
    ensures !Consistent(DeleteNode(g, n))
  {
    PartnerFilesUndirected(g, n, id, p);
    StaleAfterDelete(g, n, id, p);
    StaleIsInconsistent(DeleteNode(g, n), id, p);
  }

  lemma PartnerFilesUndirected(g: Graph, n: string, id: string, p: string)
    requires Consistent(g) && n in g.nodes
    requires id in g.store[n].undirected
    requires g.store[n].undirected[id].origin == p || g.store[n].undirected[id].target == p
    ensures p in g.nodes && p in g.store && id in g.store[p].undirected
  {
    var e := g.store[n].undirected[id];
    assert g.store[n].undirected == DerivedUndirected(g.edges, n);
    assert id in g.edges && g.edges[id] == e;
    assert p in g.nodes;
    assert g.store[p].undirected == DerivedUndirected(g.edges, p);
  }

  lemma StaleAfterDelete(g: Graph, n: string, id: string, p: string)
    requires n in g.store && p in g.nodes && p in g.store && p != n
    requires id in g.store[n].undirected && id in g.store[p].undirected
    ensures p in DeleteNode(g, n).nodes
    ensures id in DeleteNode(g, n).store[p].undirected
    ensures id !in DeleteNode(g, n).edges
  {
    DeleteNodeRemovesExactly(g, n);
    DeleteNodeRemovesIncidentEdges(g, n);
  }

  lemma StaleIsInconsistent(r: Graph, id: string, p: string)
    requires p in r.nodes && p in r.store && id in r.store[p].undirected && id !in r.edges
    ensures !Consistent(r)
  {
    assert id !in DerivedUndirected(r.edges, p);
  }

  /** When the store is tidy on a set of nodes holding `n`, deleting `n`
      removes no children entry of any node in that set: the second pass only
      meets ids filed in n's own children under the same edge, and the third
      pass only meets undirected ids, which no children map in the set holds. */
  lemma DeleteNodeKeepsChildren(g: Graph, n: string, within: set<string>)
    requires n in g.store && n in within && Tidy(g.store, within)
    ensures forall x | x in g.store && x in within :: DeleteNode(g, n).store[x].children == g.store[x].children
  {
    DeleteNodeRemovesExactly(g, n);
    ChildrenKept(g.store, DeleteNode(g, n).store, n, within);
  }

  /** `DeleteNodeKeepsChildren` on any store that shrank from `s` and kept
      the children entries `DeleteNode` keeps. */
  lemma ChildrenKept(s: map<string, GraphNode>, s': map<string, GraphNode>, n: string, within: set<string>)
    requires n in s && n in within && Tidy(s, within) && Shrinks(s, s')
    requires forall x, id | x in s && id in s[x].children ::
      (id in s'[x].children <==>
         !(Targets(s[n].parents, id, x) && !Targets(s[n].children, id, n)) && !Targets(s[n].undirected, id, x))
    ensures forall x | x in s && x in within :: s'[x].children == s[x].children
  {
    forall x | x in s && x in within
      ensures s'[x].children == s[x].children
    {
      forall id | id in s[x].children
        ensures id in s'[x].children
      {
        KeptChildEntry(s, n, x, id, within);
      }
    }
  }

  /** In a store tidy on `within`, no pass of deleting `n` meets a children
      entry of a node in `within`. */
  lemma KeptChildEntry(s: map<string, GraphNode>, n: string, x: string, id: string, within: set<string>)
    requires Tidy(s, within) && n in s && n in within && x in s && x in within && id in s[x].children
    ensures !(Targets(s[n].parents, id, x) && !Targets(s[n].children, id, n))
    ensures !Targets(s[n].undirected, id, x)
  {
    var e := s[x].children[id];
    assert Holds(s[x], id, e);
    if Targets(s[n].parents, id, x) {
      assert Holds(s[n], id, s[n].parents[id]);
    }
    if id in s[n].undirected {
      assert Holds(s[n], id, s[n].undirected[id]);
    }
  }


  /** Deletes every descendant of `n` along child edges, depth first: each
      edge in n's children is handed to `DeleteChild`, except an entry removed
      meanwhile, which is skipped as a Go map iteration skips deleted keys;
      `n` itself stays. The program's recursion has no cycle guard and does
      not terminate once a cycle of child edges is reachable from `n`: the
      ghost `rank`, which ranks `n` and strictly decreases along child edges
      from every node it ranks, is the precondition under which it does.
      Only descendants are removed; when the ranked nodes are tidy, all of
      them are, and no ranked node's children map changes. */
  method DeleteAllChildren(g: Graph, n: string, ghost rank: map<string, nat>) returns (r: Graph)
    requires n in g.store && n in rank && Ranked(g.store, rank)
    ensures Shrinks(g.store, r.store)
    ensures r.nodes <= g.nodes && SubMap(r.edges, g.edges) && r.link == g.link && r.mouse == g.mouse
    ensures forall k | k in g.nodes - r.nodes :: Descends(g.store, rank, n, k)
    ensures n in r.nodes <==> n in g.nodes
    ensures Tidy(g.store, rank.Keys) ==> forall x | x in g.store && x in rank :: r.store[x].children == g.store[x].children
    ensures Tidy(g.store, rank.Keys) ==> forall k | Descends(g.store, rank, n, k) :: k !in r.nodes
    ensures forall k | k in g.edges && k !in r.edges :: k in g.store[n].children || FiledBelow(g.store, rank, n, k)
    ensures Filed(g) ==> Filed(r) && forall k | k in r.edges ::
      r.edges[k].origin !in g.nodes - r.nodes && r.edges[k].target !in g.nodes - r.nodes
    decreases rank[n], 2
  {
    r := g;
    var kids := g.store[n].children;
    var todo := kids.Keys;
    while todo != {}
      invariant todo <= kids.Keys
      invariant Shrinks(g.store, r.store)
      invariant r.nodes <= g.nodes && SubMap(r.edges, g.edges) && r.link == g.link && r.mouse == g.mouse
      invariant forall k | k in g.nodes - r.nodes :: Descends(g.store, rank, n, k)
      invariant Tidy(g.store, rank.Keys) ==> forall x | x in g.store && x in rank :: r.store[x].children == g.store[x].children
      invariant Tidy(g.store, rank.Keys) ==> forall id | id in kids.Keys - todo :: Cleared(g.store, rank, kids[id].target, r.nodes)
      invariant forall k | k in g.edges && k !in r.edges :: k in kids || FiledBelow(g.store, rank, n, k)
      invariant Filed(g) ==> Filed(r)
      decreases todo
    {
      var id :| id in todo;
      todo := todo - {id};
      if id in r.store[n].children {
        r := VisitChild(g, r, n, id, kids, todo, rank);
      }
    }
    if n in g.nodes && n !in r.nodes {
      DescendsLowersRank(g.store, rank, n, n);
    }
    if Tidy(g.store, rank.Keys) {
      ChildrenCleared(g.store, rank, n, r.nodes);
    }
  }

  /** When every child of `n` is cleared, every descendant of `n` is gone. */
  lemma ChildrenCleared(s: map<string, GraphNode>, rank: map<string, nat>, n: string, live: set<string>)
    requires Ranked(s, rank) && n in s
    requires forall id | id in s[n].children :: Cleared(s, rank, s[n].children[id].target, live)
    ensures forall k | Descends(s, rank, n, k) :: k !in live
  {
    forall k | Descends(s, rank, n, k)
      ensures k !in live
    {
      var id :| id in s[n].children &&
        (s[n].children[id].target == k || Descends(s, rank, s[n].children[id].target, k));
      assert Cleared(s, rank, s[n].children[id].target, live);
    }
  }

  /** One pass of the loop in `DeleteAllChildren`: the child edge `id` of
      `n`, still filed, goes to `DeleteChild`, and the loop's invariants
      carry over from `r` to the result. */
  method VisitChild(g: Graph, r: Graph, n: string, id: string, kids: map<string, GraphEdge>, todo: set<string>,
                    ghost rank: map<string, nat>) returns (r': Graph)
    requires n in g.store && n in rank && Ranked(g.store, rank) && kids == g.store[n].children
    requires id in kids && id !in todo && todo <= kids.Keys
    requires Shrinks(g.store, r.store) && id in r.store[n].children
    requires r.nodes <= g.nodes && SubMap(r.edges, g.edges) && r.link == g.link && r.mouse == g.mouse
    requires forall k | k in g.nodes - r.nodes :: Descends(g.store, rank, n, k)
    requires Tidy(g.store, rank.Keys) ==> forall x | x in g.store && x in rank :: r.store[x].children == g.store[x].children
    requires Tidy(g.store, rank.Keys) ==> forall j | j in kids.Keys - (todo + {id}) :: Cleared(g.store, rank, kids[j].target, r.nodes)
    requires forall k | k in g.edges && k !in r.edges :: k in kids || FiledBelow(g.store, rank, n, k)
    requires Filed(g) ==> Filed(r)
    ensures Shrinks(g.store, r'.store)
    ensures r'.nodes <= g.nodes && SubMap(r'.edges, g.edges) && r'.link == g.link && r'.mouse == g.mouse
    ensures forall k | k in g.nodes - r'.nodes :: Descends(g.store, rank, n, k)
    ensures Tidy(g.store, rank.Keys) ==> forall x | x in g.store && x in rank :: r'.store[x].children == g.store[x].children
    ensures Tidy(g.store, rank.Keys) ==> forall j | j in kids.Keys - todo :: Cleared(g.store, rank, kids[j].target, r'.nodes)
    ensures forall k | k in g.edges && k !in r'.edges :: k in kids || FiledBelow(g.store, rank, n, k)
    ensures Filed(g) ==> Filed(r')
    decreases rank[n], 1
  {
    ShrinksKeeps(g.store, r.store, rank, rank.Keys);
    r' := DeleteChild(r, n, id, rank);
    ShrinksTransitive(g.store, r.store, r'.store);
    RemovedStayDescendants(g, r, r', rank, n);
    EdgesStep(g, r, r', rank, n, id, kids);
    if Tidy(g.store, rank.Keys) {
      ClearedTransfer(g.store, r.store, rank, kids[id].target, r'.nodes);
      ClearedStep(g.store, rank, kids, todo, id, r.nodes, r'.nodes);
    }
  }

  /** In a consistent graph whose ranked nodes are live, a deletion that
      leaves the graph filed, removes every descendant of `n`, and removes
      only edges `n` files (when `n` goes too), child edges of `n`, or edges
      filed below `n`, removes exactly the edges that touch a removed node. */
  lemma RemovedEdgesExactly(g: Graph, r: Graph, rank: map<string, nat>, n: string)
    requires Consistent(g) && rank.Keys <= g.nodes && n in rank && Ranked(g.store, rank)
    requires Filed(r) && SubMap(r.edges, g.edges) && r.nodes <= g.nodes
    requires forall k | k in g.edges && k !in r.edges ::
      (n !in r.nodes && k in Incident(g.store[n])) || k in g.store[n].children || FiledBelow(g.store, rank, n, k)
    requires forall x | Descends(g.store, rank, n, x) :: x !in r.nodes
    ensures forall k | k in g.edges :: (k in r.edges <==> g.edges[k].origin in r.nodes && g.edges[k].target in r.nodes)
  {
    forall k | k in g.edges && k !in r.edges
      ensures g.edges[k].origin !in r.nodes || g.edges[k].target !in r.nodes
    {
      if n !in r.nodes && k in Incident(g.store[n]) {
        FiledEdgeTouches(g, n, k);
      } else if k in g.store[n].children {
        assert g.store[n].children == DerivedChildren(g.edges, n);
        DescendsThroughChild(g.store, rank, n, k, g.edges[k].target);
      } else {
        var x :| Descends(g.store, rank, n, x) && x in g.store && k in Incident(g.store[x]);
        DescendsLowersRank(g.store, rank, n, x);
        FiledEdgeTouches(g, x, k);
      }
    }
  }

  /** One iteration of `DeleteAllChildren` for the child edge `id` of `n`:
      delete the target's descendants, drop the edge from the table, delete
      the target. It removes only the target and its descendants; in a tidy
      store it removes all of them and changes no ranked node's children map. */
  method DeleteChild(g: Graph, n: string, id: string, ghost rank: map<string, nat>) returns (r: Graph)
    requires n in g.store && n in rank && id in g.store[n].children
    requires Ranked(g.store, rank)
    ensures Shrinks(g.store, r.store)
    ensures r.nodes <= g.nodes && SubMap(r.edges, g.edges) && r.link == g.link && r.mouse == g.mouse
    ensures forall k | k in g.nodes - r.nodes :: Descends(g.store, rank, n, k)
    ensures Tidy(g.store, rank.Keys) ==> forall x | x in g.store && x in rank :: r.store[x].children == g.store[x].children
    ensures Tidy(g.store, rank.Keys) ==> Cleared(g.store, rank, g.store[n].children[id].target, r.nodes)
    ensures id !in r.edges
    ensures forall k | k in g.edges && k !in r.edges :: k == id || FiledBelow(g.store, rank, n, k)
    ensures Filed(g) ==> Filed(r) && forall k | k in r.edges ::
      r.edges[k].origin !in g.nodes - r.nodes && r.edges[k].target !in g.nodes - r.nodes
    decreases rank[n], 0
  {
    var t := g.store[n].children[id].target;
    var r1 := DeleteAllChildren(g, t, rank);
    var r2 := r1.(edges := r1.edges - {id});
    r := DeleteTarget(r2, t, rank.Keys);
    assert Shrinks(g.store, r.store) by {
      ShrinksTransitive(g.store, r1.store, r.store);
    }
    assert forall k | k in g.nodes - r.nodes :: Descends(g.store, rank, n, k) by {
      ChildRemovesBelow(g, r1, r, rank, n, id);
    }
    assert Tidy(g.store, rank.Keys) ==>
      && (forall x | x in g.store && x in rank :: r.store[x].children == g.store[x].children)
      && Cleared(g.store, rank, t, r.nodes)
    by {
      if Tidy(g.store, rank.Keys) {
        ShrinksKeeps(g.store, r1.store, rank, rank.Keys);
      }
    }
    assert forall k | k in g.edges && k !in r.edges :: k == id || FiledBelow(g.store, rank, n, k) by {
      ChildStepRemoves(g, r1, r2, r, rank, n, id);
    }
    assert Filed(g) ==> Filed(r) && forall k | k in r.edges ::
      r.edges[k].origin !in g.nodes - r.nodes && r.edges[k].target !in g.nodes - r.nodes
    by {
      if Filed(g) {
        FiledFewerEdges(r1, r2);
        FiledNoRemovedEnd(g, r);
      }
    }
  }

  /** Nodes removed by one `DeleteChild` step are the target or below it, so below `n`. */
  lemma ChildRemovesBelow(g: Graph, r1: Graph, r: Graph, rank: map<string, nat>, n: string, id: string)
    requires Ranked(g.store, rank) && n in g.store && n in rank && id in g.store[n].children
    requires forall k | k in g.nodes - r1.nodes :: Descends(g.store, rank, g.store[n].children[id].target, k)
    requires r.nodes == r1.nodes - {g.store[n].children[id].target}
    ensures forall k | k in g.nodes - r.nodes :: Descends(g.store, rank, n, k)
  {
    forall k | k in g.nodes - r.nodes
      ensures Descends(g.store, rank, n, k)
    {
      DescendsThroughChild(g.store, rank, n, id, k);
    }
  }

  /** `DeleteNode` as `DeleteChild` applies it to a child's target, with the
      facts about it that the recursion relies on. */
  method DeleteTarget(g: Graph, t: string, ghost within: set<string>) returns (r: Graph)
    requires t in g.store
    ensures r.nodes == g.nodes - {t} && SubMap(r.edges, g.edges) && r.link == g.link && r.mouse == g.mouse
    ensures Shrinks(g.store, r.store)
    ensures r.edges.Keys == g.edges.Keys - Incident(g.store[t])
    ensures Filed(g) ==> Filed(r)
    ensures t in within && Tidy(g.store, within) ==>
      forall x | x in g.store && x in within :: r.store[x].children == g.store[x].children
  {
    r := DeleteNode(g, t);
    DeleteNodeDropsLeaveTable(g, t);
    if Filed(g) {
      DeleteNodeNoEdgeRefersToN(g, t);
    }
    if t in within && Tidy(g.store, within) {
      DeleteNodeKeepsChildren(g, t, within);
    }
  }

  /** Dropping edges from the table keeps a graph filed. */
  lemma FiledFewerEdges(g: Graph, r: Graph)
    requires Filed(g) && r.store == g.store && r.nodes == g.nodes && SubMap(r.edges, g.edges)
    ensures Filed(r)
  {
  }

  /** In a filed graph, no table edge touches a node that has left. */
  lemma FiledNoRemovedEnd(g: Graph, r: Graph)
    requires Filed(r)
    ensures forall k | k in r.edges ::
      r.edges[k].origin !in g.nodes - r.nodes && r.edges[k].target !in g.nodes - r.nodes
  {
  }

  /** Which edges one `DeleteChild` step removes: the child edge itself, what
      the recursive call removed, and what the target files. All of them are
      the child edge or filed by a descendant of `n`. */
  lemma ChildStepRemoves(g: Graph, r1: Graph, r2: Graph, r: Graph, rank: map<string, nat>, n: string, id: string)
    requires Ranked(g.store, rank) && n in g.store && n in rank && id in g.store[n].children
    requires Shrinks(g.store, r2.store) && SubMap(r1.edges, g.edges) && r2 == r1.(edges := r1.edges - {id})
    requires forall k | k in g.edges && k !in r1.edges ::
      k in g.store[g.store[n].children[id].target].children || FiledBelow(g.store, rank, g.store[n].children[id].target, k)
    requires r.edges.Keys == r2.edges.Keys - Incident(r2.store[g.store[n].children[id].target])
    ensures forall k | k in g.edges && k !in r.edges :: k == id || FiledBelow(g.store, rank, n, k)
  {
    var t := g.store[n].children[id].target;
    DescendsThroughChild(g.store, rank, n, id, t);
    forall k | k in g.edges && k !in r.edges && k != id
      ensures FiledBelow(g.store, rank, n, k)
    {
      if k in r1.edges {
        assert k in Incident(g.store[t]);
      } else if !(k in g.store[t].children) {
        var x :| Descends(g.store, rank, t, x) && x in g.store && k in Incident(g.store[x]);
        DescendsThroughChild(g.store, rank, n, id, x);
      }
    }
  }

  /** One `DeleteAllChildren` step that hands the child edge `id` to
      `DeleteChild` keeps every removed edge a child edge of `n` or filed
      below `n`. */
  lemma EdgesStep(g: Graph, r: Graph, r': Graph, rank: map<string, nat>, n: string, id: string,
                  kids: map<string, GraphEdge>)
    requires Ranked(g.store, rank) && Ranked(r.store, rank) && n in g.store
    requires Shrinks(g.store, r.store) && SubMap(r'.edges, r.edges)
    requires id in kids
    requires forall k | k in g.edges && k !in r.edges :: k in kids || FiledBelow(g.store, rank, n, k)
    requires forall k | k in r.edges && k !in r'.edges :: k == id || FiledBelow(r.store, rank, n, k)
    ensures forall k | k in g.edges && k !in r'.edges :: k in kids || FiledBelow(g.store, rank, n, k)
  {
    forall k | k in g.edges && k !in r'.edges && k !in kids
      ensures FiledBelow(g.store, rank, n, k)
    {
      if k in r.edges {
        FiledBelowWithin(g.store, r.store, rank, n, k);
      }
    }
  }


  /** The target of a child edge of `n`, and each of its descendants, descend from `n`. */
  lemma DescendsThroughChild(s: map<string, GraphNode>, rank: map<string, nat>, n: string, id: string, k: string)
    requires Ranked(s, rank) && n in s && n in rank && id in s[n].children
    requires k == s[n].children[id].target || Descends(s, rank, s[n].children[id].target, k)
    ensures Descends(s, rank, n, k)
  {
  }

  /** A cycle of child edges that a node cannot reach does not stand in the way
      of deleting its descendants: with `a` and `b` children of each other and
      `c` apart from them, ranking `c` alone meets the precondition, while
      ranking `a` alone does not. */
  lemma UnreachableCycleAllowed(w: GraphNode)
    ensures var ab := GraphEdge("ab", "a", "b", "child", true, 2.0, w.boxFillColor);
            var ba := GraphEdge("ba", "b", "a", "child", true, 2.0, w.boxFillColor);
            var s := map["a" := w.(id := "a", children := map["ab" := ab], parents := map["ba" := ba]),
                         "b" := w.(id := "b", children := map["ba" := ba], parents := map["ab" := ab]),
                         "c" := w.(id := "c", children := map[])];
            Ranked(s, map["c" := 0]) && !Ranked(s, map["a" := 0])
  {
    var ab := GraphEdge("ab", "a", "b", "child", true, 2.0, w.boxFillColor);
    var ba := GraphEdge("ba", "b", "a", "child", true, 2.0, w.boxFillColor);
    var s := map["a" := w.(id := "a", children := map["ab" := ab], parents := map["ba" := ba]),
                 "b" := w.(id := "b", children := map["ba" := ba], parents := map["ab" := ab]),
                 "c" := w.(id := "c", children := map[])];
    assert "ab" in s["a"].children && s["a"].children["ab"].target !in map["a" := 0];
  }

  /** Nodes removed while the store has only shrunk are descendants in the
      original store. */
  lemma RemovedStayDescendants(g: Graph, r: Graph, r': Graph, rank: map<string, nat>, n: string)
    requires Ranked(g.store, rank) && Ranked(r.store, rank) && Shrinks(g.store, r.store)
    requires forall k | k in g.nodes - r.nodes :: Descends(g.store, rank, n, k)
    requires forall k | k in r.nodes - r'.nodes :: Descends(r.store, rank, n, k)
    requires r'.nodes <= r.nodes
    ensures forall k | k in g.nodes - r'.nodes :: Descends(g.store, rank, n, k)
  {
    ShrinksKeeps(g.store, r.store, rank, {});
    forall k | k in g.nodes - r'.nodes
      ensures Descends(g.store, rank, n, k)
    {
      if k in r.nodes {
        DescendsWithin(g.store, r.store, rank, n, k);
      }
    }
  }

  /** With the same children maps on ranked nodes, two stores agree on what is cleared. */
  lemma ClearedTransfer(s: map<string, GraphNode>, s': map<string, GraphNode>, rank: map<string, nat>,
                        t: string, live: set<string>)
    requires Ranked(s, rank) && Ranked(s', rank)
    requires s'.Keys == s.Keys && forall x | x in s && x in rank :: s'[x].children == s[x].children
    requires Cleared(s', rank, t, live)
    ensures Cleared(s, rank, t, live)
  {
    assert ChildrenWithin(s, s', rank);
    forall k | Descends(s, rank, t, k)
      ensures k !in live
    {
      DescendsWithin(s', s, rank, t, k);
    }
  }

  /** Neither `t` nor any descendant of `t` is in `live`. */
  ghost predicate Cleared(s: map<string, GraphNode>, rank: map<string, nat>, t: string, live: set<string>)
    requires Ranked(s, rank)
  {
    t !in live && forall k | Descends(s, rank, t, k) :: k !in live
  }

  /** The completeness invariant of `DeleteAllChildren` survives a step that
      clears the current child and only removes nodes. */
  lemma ClearedStep(s: map<string, GraphNode>, rank: map<string, nat>, kids: map<string, GraphEdge>,
                    todo: set<string>, id: string, live: set<string>, live': set<string>)
    requires Ranked(s, rank) && id in kids && live' <= live
    requires forall j | j in kids.Keys - (todo + {id}) :: Cleared(s, rank, kids[j].target, live)
    requires Cleared(s, rank, kids[id].target, live')
    ensures forall j | j in kids.Keys - todo :: Cleared(s, rank, kids[j].target, live')
  {
  }
}

=== FILE: edges.dfy ===
/** Edge creation: registering an edge and filing it on both endpoints. */
module Edges {
  import opened Style
  import opened Model

  /** Registers edge `id` from `from` to `to`, overwriting any edge already
      under that id, and files it on both endpoints: a child edge in the
      origin's children and the target's parents, any other kind in both
      endpoints' undirected maps. Both endpoints must be node objects. */
  function NewGraphEdge(g: Graph, id: string, rel: string, from: string, to: string, foreground: RGBA): (r: Graph)
    requires from in g.store && to in g.store
    ensures id in r.edges
    ensures r.edges[id].id == id && r.edges[id].origin == from && r.edges[id].target == to
    ensures r.edges[id].rel == rel && r.edges[id].width == 2.0
    ensures r.edges[id].color == SelectColor(rel, foreground)
    ensures r.edges[id].directed <==> rel == ChildRel
    ensures forall k :: k != id ==> (k in r.edges <==> k in g.edges)
    ensures forall k | k != id && k in g.edges :: r.edges[k] == g.edges[k]
    ensures r.nodes == g.nodes && r.link == g.link && r.mouse == g.mouse
    ensures r.store.Keys == g.store.Keys
    ensures forall x | x in g.store :: SameButAdjacency(g.store[x], r.store[x])
    ensures forall x | x in g.store ::
      r.store[x].children ==
        (if rel == ChildRel && x == from then g.store[x].children[id := r.edges[id]] else g.store[x].children)
    ensures forall x | x in g.store ::
      r.store[x].parents ==
        (if rel == ChildRel && x == to then g.store[x].parents[id := r.edges[id]] else g.store[x].parents)
    ensures forall x | x in g.store ::
      r.store[x].undirected ==
        (if rel != ChildRel && (x == from || x == to) then g.store[x].undirected[id := r.edges[id]]
         else g.store[x].undirected)
  {
    var e := GraphEdge(id, from, to, rel, rel == ChildRel, 2.0, SelectColor(rel, foreground));
    g.(store := map x | x in g.store :: FileEdge(g.store[x], x, e), edges := g.edges[id := e])
  }

  /** The node stored under `x` once edge `e` is filed on its endpoints. */
  function FileEdge(w: GraphNode, x: string, e: GraphEdge): GraphNode
  {
    w.(children := if e.directed && x == e.origin then w.children[e.id := e] else w.children,
       parents := if e.directed && x == e.target then w.parents[e.id := e] else w.parents,
       undirected := if !e.directed && (x == e.origin || x == e.target) then w.undirected[e.id := e]
                     else w.undirected)
  }

  /** Inserting a new edge into a table adds it to exactly the derived
      adjacency maps its kind and endpoints select. */
  lemma DerivedAfterInsert(edges: map<string, GraphEdge>, e: GraphEdge, k: string)
    requires e.id !in edges
    ensures DerivedChildren(edges[e.id := e], k) ==
      (if e.directed && e.origin == k then DerivedChildren(edges, k)[e.id := e] else DerivedChildren(edges, k))
    ensures DerivedParents(edges[e.id := e], k) ==
      (if e.directed && e.target == k then DerivedParents(edges, k)[e.id := e] else DerivedParents(edges, k))
    ensures DerivedUndirected(edges[e.id := e], k) ==
      (if !e.directed && (e.origin == k || e.target == k) then DerivedUndirected(edges, k)[e.id := e]
       else DerivedUndirected(edges, k))
  {
    ChildrenAfterInsert(edges, e, k);
    ParentsAfterInsert(edges, e, k);
    UndirectedAfterInsert(edges, e, k);
  }

  lemma ChildrenAfterInsert(edges: map<string, GraphEdge>, e: GraphEdge, k: string)
    requires e.id !in edges
    ensures DerivedChildren(edges[e.id := e], k) ==
      (if e.directed && e.origin == k then DerivedChildren(edges, k)[e.id := e] else DerivedChildren(edges, k))
  {
  }

  lemma ParentsAfterInsert(edges: map<string, GraphEdge>, e: GraphEdge, k: string)
    requires e.id !in edges
    ensures DerivedParents(edges[e.id := e], k) ==
      (if e.directed && e.target == k then DerivedParents(edges, k)[e.id := e] else DerivedParents(edges, k))
  {
  }

  lemma UndirectedAfterInsert(edges: map<string, GraphEdge>, e: GraphEdge, k: string)
    requires e.id !in edges
    ensures DerivedUndirected(edges[e.id := e], k) ==
      (if !e.directed && (e.origin == k || e.target == k) then DerivedUndirected(edges, k)[e.id := e]
       else DerivedUndirected(edges, k))
  {
  }

  /** Filing a fresh edge between two live nodes of a consistent graph, and
      registering it, gives a consistent graph. */
  lemma FileEdgeKeepsConsistent(g: Graph, e: GraphEdge, r: Graph)
    requires Consistent(g)
    requires e.id !in g.edges && e.origin in g.nodes && e.target in g.nodes
    requires r.nodes == g.nodes && r.edges == g.edges[e.id := e]
    requires r.store == map x | x in g.store :: FileEdge(g.store[x], x, e)
    ensures Consistent(r)
  {
    forall k | k in r.nodes
      ensures r.store[k].id == k
      ensures r.store[k].children == DerivedChildren(r.edges, k)
      ensures r.store[k].parents == DerivedParents(r.edges, k)
      ensures r.store[k].undirected == DerivedUndirected(r.edges, k)
    {
      DerivedAfterInsert(g.edges, e, k);
      assert r.store[k] == FileEdge(g.store[k], k, e);
    }
  }

  /** Creating an edge under an unused id between two live nodes keeps the
      graph consistent. */
  lemma NewGraphEdgeKeepsConsistent(g: Graph, id: string, rel: string, from: string, to: string, foreground: RGBA)
    requires Consistent(g)
    requires id !in g.edges
    requires from in g.nodes && to in g.nodes
    ensures Consistent(NewGraphEdge(g, id, rel, from, to, foreground))
  {
    var e := GraphEdge(id, from, to, rel, rel == ChildRel, 2.0, SelectColor(rel, foreground));
    FileEdgeKeepsConsistent(g, e, NewGraphEdge(g, id, rel, from, to, foreground));
  }
}

=== FILE: geometry.dfy ===
/** Canvas positions and sizes used by graph nodes (fyne.Position and fyne.Size).
    Coordinates are exact reals: the model does additive bookkeeping only and
    makes no claim about float32 rounding. */
module Geometry {

  /** A point or a displacement on the canvas. */
  datatype Vec = Vec(x: real, y: real)

  /** A width/height pair. */
  datatype Size = Size(width: real, height: real)

  const Origin := Vec(0.0, 0.0)

  /** Componentwise sum, as fyne.Position.Add. */
  function Add(p: Vec, d: Vec): Vec
  {
    Vec(p.x + d.x, p.y + d.y)
  }

  function MaxReal(a: real, b: real): (m: real)
    ensures m >= a && m >= b
    ensures m == a || m == b
  {
    if a >= b then a else b
  }

  /** Componentwise maximum of two sizes, as fyne.Size.Max. */
  function Max(a: Size, b: Size): (m: Size)
    ensures m.width >= a.width && m.width >= b.width
    ensures m.width == a.width || m.width == b.width
    ensures m.height >= a.height && m.height >= b.height
    ensures m.height == a.height || m.height == b.height
  {
    Size(MaxReal(a.width, b.width), MaxReal(a.height, b.height))
  }
}

=== FILE: incidence.dfy ===
/** The incidence query: the edges of the table that touch a node. */
module Incidence {
  import opened Model

  /** Keys among `ids` of table edges whose origin or target is `n`. */
  function Touching(edges: map<string, GraphEdge>, n: string, ids: set<string>): set<string>
  {
    set id | id in ids && id in edges && (edges[id].origin == n || edges[id].target == n)
  }

  /** Collects, in unspecified order, every table edge whose origin or target
      is `n`, once per table entry: a self-loop is taken once because the
      target test is only made when the origin test fails. */
  method GetEdges(g: Graph, n: string) returns (r: seq<GraphEdge>)
    ensures |r| == |Touching(g.edges, n, g.edges.Keys)|
    ensures forall e :: e in r <==> exists id | id in Touching(g.edges, n, g.edges.Keys) :: g.edges[id] == e
  {
    r := [];
    var rest := g.edges.Keys;
    ghost var seen: set<string> := {};
    while rest != {}
      invariant rest + seen == g.edges.Keys && rest !! seen
      invariant |r| == |Touching(g.edges, n, seen)|
      invariant forall e :: e in r <==> exists id | id in Touching(g.edges, n, seen) :: g.edges[id] == e
      decreases rest
    {
      var id :| id in rest;
      var e := g.edges[id];
      if e.origin == n {
        r := r + [e];
      } else if e.target == n {
        r := r + [e];
      }
      TouchingStep(g.edges, n, seen, id);
      rest := rest - {id};
      seen := seen + {id};
    }
  }

  /** Adding one table key to the keys looked at adds it to the touching
      keys exactly when its edge touches `n`. */
  lemma TouchingStep(edges: map<string, GraphEdge>, n: string, seen: set<string>, id: string)
    requires id in edges && id !in seen
    ensures edges[id].origin == n || edges[id].target == n ==>
      Touching(edges, n, seen + {id}) == Touching(edges, n, seen) + {id} &&
      |Touching(edges, n, seen + {id})| == |Touching(edges, n, seen)| + 1
    ensures !(edges[id].origin == n || edges[id].target == n) ==>
      Touching(edges, n, seen + {id}) == Touching(edges, n, seen)
  {
    if edges[id].origin == n || edges[id].target == n {
      assert Touching(edges, n, seen + {id}) == Touching(edges, n, seen) + {id};
    } else {
      assert Touching(edges, n, seen + {id}) == Touching(edges, n, seen);
    }
  }
}

=== FILE: interaction.dfy ===
/** The graph widget's gesture-driven state: the two-click linking protocol,
    pointer tracking, canvas dragging and clearing. */
module Interaction {
  import opened Geometry
  import opened Style
  import opened Model
  import opened Nodes
  import opened Edges

  /** The id a completed link gets: origin id, "->", target id. */
  function LinkId(origin: string, target: string): string
  {
    origin + "->" + target
  }

  /** Records `p` as the pending origin and `rel` as the pending relationship,
      replacing any link already pending; the rubber-band line takes the
      relationship's colour and ends at the last pointer position. */
  function StartLinking(g: Graph, p: string, rel: string, foreground: RGBA): (r: Graph)
    requires p in g.store
    ensures r.link.Linking? && r.link.origin == p && r.link.rel == rel
    ensures r.link.lineColor == SelectColor(rel, foreground) && r.link.freeEnd == g.mouse
    ensures r.(link := g.link) == g
  {
    g.(link := Linking(p, rel, SelectColor(rel, foreground), g.mouse))
  }

  /** Ends linking; nodes and edges are untouched. */
  function StopLinking(g: Graph): (r: Graph)
    ensures r.link == Idle
    ensures r.(link := g.link) == g
  {
    g.(link := Idle)
  }

  /** Completes a pending link onto `c`: when a link is pending and `c` is not
      its origin, an edge `origin->c` of the pending relationship is created
      (overwriting any edge with that id); in every case linking ends. */
  function CompleteLinking(g: Graph, c: string, foreground: RGBA): (r: Graph)
    requires c in g.store
    requires g.link.Linking? ==> g.link.origin in g.store
    ensures r.link == Idle
    ensures r.nodes == g.nodes && r.mouse == g.mouse
    ensures g.link.Linking? && c != g.link.origin ==>
      r == NewGraphEdge(g, LinkId(g.link.origin, c), g.link.rel, g.link.origin, c, foreground).(link := Idle)
    ensures g.link.Linking? && c != g.link.origin ==>
      var id := LinkId(g.link.origin, c);
      && id in r.edges
      && r.edges[id].origin == g.link.origin && r.edges[id].target == c
      && r.edges[id].rel == g.link.rel
      && (forall k | k != id :: (k in r.edges <==> k in g.edges))
    ensures !(g.link.Linking? && c != g.link.origin) ==> r.store == g.store && r.edges == g.edges
  {
    if g.link.Linking? && c != g.link.origin then
      StopLinking(NewGraphEdge(g, LinkId(g.link.origin, c), g.link.rel, g.link.origin, c, foreground))
    else
      StopLinking(g)
  }

  /** Records the pointer position and, while linking, moves the rubber-band
      line's free end there. */
  function MouseMoved(g: Graph, p: Vec): (r: Graph)
    ensures r.mouse == p
    ensures r.store == g.store && r.nodes == g.nodes && r.edges == g.edges
    ensures r.link.Linking? <==> g.link.Linking?
    ensures g.link.Linking? ==> r.link == g.link.(freeEnd := p)
    ensures g.link.Idle? ==> r.link == Idle
  {
    var link := if g.link.Linking? then g.link.(freeEnd := p) else g.link;
    g.(mouse := p, link := link)
  }

  /** Empties the node and edge maps and ends linking. */
  function ClearGraph(g: Graph): (r: Graph)
    ensures r.nodes == {} && r.edges == map[] && r.link == Idle
    ensures r.store == g.store && r.mouse == g.mouse
  {
    StopLinking(g).(edges := map[], nodes := {})
  }

  /** A cleared graph satisfies the graph invariants. */
  lemma ClearGraphConsistent(g: Graph)
    ensures Consistent(ClearGraph(g))
  {
  }

  /** Dragging the canvas displaces every live node by the same delta;
      removed node objects and all edges are left as they are. */
  function Dragged(g: Graph, d: Vec): (r: Graph)
    ensures r.nodes == g.nodes && r.edges == g.edges && r.link == g.link && r.mouse == g.mouse
    ensures r.store.Keys == g.store.Keys
    ensures forall k | k in g.store && k in g.nodes :: r.store[k] == Displace(g.store[k], d)
    ensures forall k | k in g.store && k !in g.nodes :: r.store[k] == g.store[k]
  {
    g.(store := map k | k in g.store :: if k in g.nodes then Displace(g.store[k], d) else g.store[k])
  }

  /** Dragging keeps a consistent graph consistent: adjacency and ids are untouched. */
  lemma DraggedKeepsConsistent(g: Graph, d: Vec)
    requires Consistent(g)
    ensures Consistent(Dragged(g, d))
  {
    var r := Dragged(g, d);
    forall k | k in r.nodes
      ensures r.store[k].id == k
      ensures r.store[k].children == g.store[k].children
      ensures r.store[k].parents == g.store[k].parents
      ensures r.store[k].undirected == g.store[k].undirected
    {
      assert r.store[k] == Displace(g.store[k], d);
    }
  }

  /** A primary-button press on the empty canvas cancels linking. */
  function CanvasMouseDown(g: Graph, primary: bool): (r: Graph)
    ensures primary ==> r.link == Idle
    ensures r.(link := g.link) == g
    ensures !primary ==> r == g
  {
    if primary then StopLinking(g) else g
  }

  /** A primary-button release on node `w` completes linking onto it. */
  function NodeMouseUp(g: Graph, w: string, primary: bool, foreground: RGBA): (r: Graph)
    requires w in g.store
    requires g.link.Linking? ==> g.link.origin in g.store
    ensures primary ==> r == CompleteLinking(g, w, foreground)
    ensures !primary ==> r == g
  {
    if primary then CompleteLinking(g, w, foreground) else g
  }

  /** Completing a link onto its own origin changes neither nodes nor edges
      and ends linking. */
  lemma SelfLinkCancels(g: Graph, a: string, rel: string, foreground: RGBA)
    requires a in g.store
    ensures var r := CompleteLinking(StartLinking(g, a, rel, foreground), a, foreground);
      r.store == g.store && r.nodes == g.nodes && r.edges == g.edges && r.link == Idle
  {
  }

  /** Starting a link while one is pending simply replaces it. */
  lemma RestartOverwrites(g: Graph, a: string, r1: string, b: string, r2: string, foreground: RGBA)
    requires a in g.store && b in g.store
    ensures StartLinking(StartLinking(g, a, r1, foreground), b, r2, foreground) == StartLinking(g, b, r2, foreground)
  {
  }

  /** Starting a link from `a` and completing it on a different node `c`
      creates the edge `a->c` of the chosen relationship, directed exactly
      for child links, and leaves the graph idle. */
  lemma StartThenComplete(g: Graph, a: string, c: string, rel: string, foreground: RGBA)
    requires a in g.store && c in g.store && a != c
    ensures var r := CompleteLinking(StartLinking(g, a, rel, foreground), c, foreground);
      && r == NewGraphEdge(g, LinkId(a, c), rel, a, c, foreground).(link := Idle)
      && LinkId(a, c) in r.edges
      && (r.edges[LinkId(a, c)].directed <==> rel == ChildRel)
      && r.link == Idle
  {
  }
}

=== FILE: menu.dfy ===
/** The actions of a node's context menu that change the graph. */
module NodeMenu {
  import opened Geometry
  import opened Style
  import opened Model
  import opened Nodes
  import opened Edges
  import opened Interaction
  import opened Deletion

  /** Vertical gap between a node and a child created from its menu. */
  const ChildGap: real := 50.0

  /** "Create Child": a new node under `newId` (a random id in the program),
      placed below `w` by its height plus a gap, filed in the `Nodes` map, and
      joined to `w` by a child edge `w->newId`. */
  function CreateChild(g: Graph, w: string, newId: string, theme: Theme, labelMin: string -> Size): (r: Graph)
    requires w in g.store
    ensures r.nodes == g.nodes + {newId}
    ensures newId in r.store && r.store[newId].id == newId
    ensures r.store[newId].position == Vec(g.store[w].position.x, g.store[w].position.y + g.store[w].size.height + ChildGap)
    ensures LinkId(w, newId) in r.edges
    ensures var e := r.edges[LinkId(w, newId)];
      e.origin == w && e.target == newId && e.rel == ChildRel && e.directed
    ensures w in r.store && LinkId(w, newId) in r.store[w].children && LinkId(w, newId) in r.store[newId].parents
    ensures forall k | k != LinkId(w, newId) :: (k in r.edges <==> k in g.edges)
    ensures r.edges[LinkId(w, newId)].width == 2.0 && r.edges[LinkId(w, newId)].color == theme.foreground
    ensures forall k | k in g.edges && k != LinkId(w, newId) :: r.edges[k] == g.edges[k]
    ensures forall x | x in g.store && x != w && x != newId :: x in r.store && r.store[x] == g.store[x]
    ensures r.link == g.link && r.mouse == g.mouse
    ensures w != newId ==>
      && r.store[newId] == ChildNode(g, w, newId, theme, labelMin).(parents := map[LinkId(w, newId) := r.edges[LinkId(w, newId)]])
      && r.store[w] == g.store[w].(children := g.store[w].children[LinkId(w, newId) := r.edges[LinkId(w, newId)]])
  {
    var g1 := AddNode(g, ChildNode(g, w, newId, theme, labelMin));
    NewGraphEdge(g1, LinkId(w, newId), ChildRel, w, newId, theme.foreground)
  }

  /** The node "Create Child" makes: a default node placed below `w`. */
  function ChildNode(g: Graph, w: string, newId: string, theme: Theme, labelMin: string -> Size): GraphNode
    requires w in g.store
  {
    var below := Vec(g.store[w].position.x, g.store[w].position.y + g.store[w].size.height + ChildGap);
    NewGraphNode(newId, labelMin(newId), theme).(position := below)
  }

  /** Creating a child under a fresh id keeps a consistent graph consistent. */
  lemma CreateChildKeepsConsistent(g: Graph, w: string, newId: string, theme: Theme, labelMin: string -> Size)
    requires Consistent(g)
    requires w in g.nodes && newId !in g.nodes && LinkId(w, newId) !in g.edges
    ensures Consistent(CreateChild(g, w, newId, theme, labelMin))
  {
    var child := ChildNode(g, w, newId, theme, labelMin);
    AddNodeKeepsConsistent(g, child);
    ChildEdgeKeepsConsistent(AddNode(g, child), w, newId, theme.foreground);
  }

  /** The child edge step of `CreateChildKeepsConsistent`, on the graph that
      already holds the new node. */
  lemma ChildEdgeKeepsConsistent(g1: Graph, w: string, newId: string, foreground: RGBA)
    requires Consistent(g1) && w in g1.nodes && newId in g1.nodes && LinkId(w, newId) !in g1.edges
    ensures Consistent(NewGraphEdge(g1, LinkId(w, newId), ChildRel, w, newId, foreground))
  {
    NewGraphEdgeKeepsConsistent(g1, LinkId(w, newId), ChildRel, w, newId, foreground);
  }

  /** What a removal from the menu keeps: no edge is added, node objects only
      lose adjacency entries, and the linking state and the pointer stay. */
  predicate RemovalFrame(g: Graph, r: Graph)
  {
    SubMap(r.edges, g.edges) && r.link == g.link && r.mouse == g.mouse && Shrinks(g.store, r.store)
  }

  /** "Remove (children)": `DeleteAllChildren` on `w`, which stays. No edge
      is added, node objects only lose adjacency entries, and linking and
      the pointer are kept. Every
      removed node descends from `w`; in a tidy store all of them go. In a
      consistent graph whose ranked nodes are live, the edges that leave the
      table are exactly those touching a removed node. */
  method RemoveChildren(g: Graph, w: string, ghost rank: map<string, nat>) returns (r: Graph)
    requires w in g.store && w in rank && Ranked(g.store, rank)
    ensures w in r.nodes <==> w in g.nodes
    ensures r.nodes <= g.nodes
    ensures RemovalFrame(g, r)
    ensures forall k | k in g.nodes - r.nodes :: Descends(g.store, rank, w, k)
    ensures Tidy(g.store, rank.Keys) ==> forall k | Descends(g.store, rank, w, k) :: k !in r.nodes
    ensures Filed(g) ==> Filed(r) && forall k | k in r.edges ::
      r.edges[k].origin !in g.nodes - r.nodes && r.edges[k].target !in g.nodes - r.nodes
    ensures Consistent(g) && rank.Keys <= g.nodes ==>
      forall k | k in g.edges :: (k in r.edges <==> g.edges[k].origin in r.nodes && g.edges[k].target in r.nodes)
  {
    r := DeleteAllChildren(g, w, rank);
    if Consistent(g) && rank.Keys <= g.nodes {
      ConsistentTidy(g, rank.Keys);
      ConsistentFiled(g);
      RemovedEdgesExactly(g, r, rank, w);
    }
  }

  /** "Remove (person + all children)": `DeleteAllChildren` then `DeleteNode`,
      with the same frame as "Remove (children)". Afterwards `w` is gone, every removed node is `w` or a descendant of it,
      and in a tidy store every descendant is gone too. In a filed graph
      (every consistent one) no edge left touches a removed node; in a
      consistent graph whose ranked nodes are live, the edges that leave the
      table are exactly those touching a removed node. */
  method RemoveWithChildren(g: Graph, w: string, ghost rank: map<string, nat>) returns (r: Graph)
    requires w in g.store && w in rank && Ranked(g.store, rank)
    ensures w !in r.nodes
    ensures r.nodes <= g.nodes
    ensures RemovalFrame(g, r)
    ensures forall k | k in g.nodes - r.nodes :: k == w || Descends(g.store, rank, w, k)
    ensures Tidy(g.store, rank.Keys) ==> forall k | Descends(g.store, rank, w, k) :: k !in r.nodes
    ensures forall k | k in g.edges && k !in r.edges :: k in Incident(g.store[w]) || FiledBelow(g.store, rank, w, k)
    ensures Filed(g) ==> Filed(r) && forall k | k in r.edges ::
      r.edges[k].origin !in g.nodes - r.nodes && r.edges[k].target !in g.nodes - r.nodes
    ensures Consistent(g) && rank.Keys <= g.nodes ==>
      forall k | k in g.edges :: (k in r.edges <==> g.edges[k].origin in r.nodes && g.edges[k].target in r.nodes)
  {
    var r1 := DeleteAllChildren(g, w, rank);
    r := DeleteTarget(r1, w, {});
    ShrinksTransitive(g.store, r1.store, r.store);
    RemovedSelfOrBelow(g, r1, r, rank, w);
    WholeRemovalEdges(g, r1, r, rank, w);
    if Filed(g) {
      FiledNoRemovedEnd(g, r);
    }
    if Consistent(g) && rank.Keys <= g.nodes {
      WholeRemovalExactly(g, r1, r, rank, w);
    }
  }

  /** Nodes removed by "Remove (person + all children)" are `w` or below it. */
  lemma RemovedSelfOrBelow(g: Graph, r1: Graph, r: Graph, rank: map<string, nat>, w: string)
    requires Ranked(g.store, rank)
    requires forall k | k in g.nodes - r1.nodes :: Descends(g.store, rank, w, k)
    requires r.nodes == r1.nodes - {w}
    ensures forall k | k in g.nodes - r.nodes :: k == w || Descends(g.store, rank, w, k)
  {
  }

  /** Edges removed by "Remove (person + all children)" are filed by `w` or
      below it, from what each of its two steps removes. */
  lemma WholeRemovalEdges(g: Graph, r1: Graph, r: Graph, rank: map<string, nat>, w: string)
    requires w in g.store && Ranked(g.store, rank) && Shrinks(g.store, r1.store) && SubMap(r1.edges, g.edges)
    requires forall k | k in g.edges && k !in r1.edges :: k in g.store[w].children || FiledBelow(g.store, rank, w, k)
    requires r.edges.Keys == r1.edges.Keys - Incident(r1.store[w])
    ensures forall k | k in g.edges && k !in r.edges :: k in Incident(g.store[w]) || FiledBelow(g.store, rank, w, k)
  {
  }

  /** The exact edge count of "Remove (person + all children)" on a
      consistent graph, from the facts about its two steps. */
  lemma WholeRemovalExactly(g: Graph, r1: Graph, r: Graph, rank: map<string, nat>, w: string)
    requires Consistent(g) && rank.Keys <= g.nodes && w in rank && Ranked(g.store, rank)
    requires r1.nodes <= g.nodes && SubMap(r1.edges, g.edges)
    requires Tidy(g.store, rank.Keys) ==> forall k | Descends(g.store, rank, w, k) :: k !in r1.nodes
    requires Filed(g) ==> Filed(r1)
    requires r.nodes == r1.nodes - {w} && SubMap(r.edges, r1.edges)
    requires Filed(r1) ==> Filed(r)
    requires forall k | k in g.edges && k !in r.edges :: k in Incident(g.store[w]) || FiledBelow(g.store, rank, w, k)
    ensures forall k | k in g.edges :: (k in r.edges <==> g.edges[k].origin in r.nodes && g.edges[k].target in r.nodes)
  {
    ConsistentTidy(g, rank.Keys);
    ConsistentFiled(g);
    RemovedEdgesExactly(g, r, rank, w);
  }
}

=== FILE: model.dfy ===
/** The data model of the graph widget: node and edge records, the linking
    state, the graph itself, and the invariants the rest of the model states
    its properties against.

    The program links nodes and edges by pointer. Here a node object is named
    by its id: `store` keeps every node object the graph has held, including
    those removed from the `Nodes` map (such a node stays reachable through
    edges, and deletion keeps writing into it) and those a cleared graph
    left behind; `nodes` is the key set of the
    `Nodes` map, whose keys always equal the ids of the nodes filed under them.
    Edge records never change after creation, so an adjacency map holding an
    edge record behaves exactly like the program's map of edge pointers. */
module Model {
  import opened Geometry
  import opened Style

  datatype GraphEdge = GraphEdge(
    id: string,
    origin: string,
    target: string,
    rel: string,
    directed: bool,
    width: real,
    color: RGBA)

  /** A node: its own id, the widget position and size, the requested inner
      size, the minimum size of the inner label, cosmetic style, and three
      adjacency maps from edge id to edge. */
  datatype GraphNode = GraphNode(
    id: string,
    position: Vec,
    size: Size,
    innerSize: Size,
    innerMin: Size,
    padding: real,
    boxStrokeWidth: real,
    boxFillColor: RGBA,
    boxStrokeColor: RGBA,
    handleColor: RGBA,
    handleStroke: real,
    children: map<string, GraphEdge>,
    parents: map<string, GraphEdge>,
    undirected: map<string, GraphEdge>)

  /** The pending two-click link: the origin node, the relationship, and the
      rubber-band line's colour and free end. */
  datatype Link =
    | Idle
    | Linking(origin: string, rel: string, lineColor: RGBA, freeEnd: Vec)

  datatype Graph = Graph(
    store: map<string, GraphNode>,
    nodes: set<string>,
    edges: map<string, GraphEdge>,
    link: Link,
    mouse: Vec)

  /** Every entry of `a` is in `b` with the same edge. */
  predicate SubMap(a: map<string, GraphEdge>, b: map<string, GraphEdge>)
  {
    forall id | id in a :: id in b && b[id] == a[id]
  }

  /** `a` and `b` are the same node apart from adjacency. */
  predicate SameButAdjacency(a: GraphNode, b: GraphNode)
  {
    a.(children := b.children, parents := b.parents, undirected := b.undirected) == b
  }

  /** Ids of all edges a node files in any of its three maps. */
  function Incident(w: GraphNode): set<string>
  {
    w.children.Keys + w.parents.Keys + w.undirected.Keys
  }

  /** The adjacency maps a node keyed `k` must hold, computed from an edge table. */
  function DerivedChildren(edges: map<string, GraphEdge>, k: string): map<string, GraphEdge>
  {
    map id | id in edges && edges[id].directed && edges[id].origin == k :: edges[id]
  }

  function DerivedParents(edges: map<string, GraphEdge>, k: string): map<string, GraphEdge>
  {
    map id | id in edges && edges[id].directed && edges[id].target == k :: edges[id]
  }

  function DerivedUndirected(edges: map<string, GraphEdge>, k: string): map<string, GraphEdge>
  {
    map id | id in edges && !edges[id].directed && (edges[id].origin == k || edges[id].target == k) :: edges[id]
  }

  /** The graph invariants: keys equal ids, edge endpoints are live nodes, and
      every live node's adjacency is exactly what the edge table induces. */
  predicate Consistent(g: Graph)
  {
    && g.nodes <= g.store.Keys
    && (forall k | k in g.nodes :: g.store[k].id == k)
    && (forall k | k in g.edges ::
          g.edges[k].id == k && g.edges[k].origin in g.nodes && g.edges[k].target in g.nodes)
    && (forall k | k in g.nodes ::
          && g.store[k].children == DerivedChildren(g.edges, k)
          && g.store[k].parents == DerivedParents(g.edges, k)
          && g.store[k].undirected == DerivedUndirected(g.edges, k))
  }

  /** Node `w` files `e` under `id` in one of its maps. */
  predicate Holds(w: GraphNode, id: string, e: GraphEdge)
  {
    || (id in w.children && w.children[id] == e)
    || (id in w.parents && w.parents[id] == e)
    || (id in w.undirected && w.undirected[id] == e)
  }

  /** Within the nodes of `within`, each entry is filed where its edge says it
      belongs, and one id names one edge. Unlike `Consistent`, this survives
      removing entries, so it survives deletion; nodes outside `within` (say,
      objects a cleared graph left behind) are not constrained. */
  ghost predicate Tidy(s: map<string, GraphNode>, within: set<string>)
  {
    && (forall x, id | x in s && x in within && id in s[x].children ::
          s[x].children[id].directed && s[x].children[id].origin == x)
    && (forall x, id | x in s && x in within && id in s[x].parents ::
          s[x].parents[id].directed && s[x].parents[id].target == x)
    && (forall x, id | x in s && x in within && id in s[x].undirected :: !s[x].undirected[id].directed)
    && (forall x, y, id, e1, e2 | x in s && x in within && y in s && y in within &&
          Holds(s[x], id, e1) && Holds(s[y], id, e2) :: e1 == e2)
  }

  /** Every edge in the table joins two live nodes, and each of them files
      its id in one of its maps. Consistent graphs meet it (`ConsistentFiled`);
      unlike `Consistent` it survives deletion, which leaves stale ids. */
  predicate Filed(g: Graph)
  {
    && g.nodes <= g.store.Keys
    && forall k | k in g.edges ::
         && g.edges[k].origin in g.nodes && g.edges[k].target in g.nodes
         && k in Incident(g.store[g.edges[k].origin]) && k in Incident(g.store[g.edges[k].target])
  }

  lemma ConsistentFiled(g: Graph)
    requires Consistent(g)
    ensures Filed(g)
  {
    forall k | k in g.edges
      ensures k in Incident(g.store[g.edges[k].origin]) && k in Incident(g.store[g.edges[k].target])
    {
      var e := g.edges[k];
      if e.directed {
        assert k in DerivedChildren(g.edges, e.origin) && k in DerivedParents(g.edges, e.target);
      } else {
        assert k in DerivedUndirected(g.edges, e.origin) && k in DerivedUndirected(g.edges, e.target);
      }
    }
  }

  /** A consistent graph is tidy on any set of live nodes. */
  lemma ConsistentTidy(g: Graph, within: set<string>)
    requires Consistent(g) && within <= g.nodes
    ensures Tidy(g.store, within)
  {
    forall x, id, e | x in g.store && x in within && Holds(g.store[x], id, e)
      ensures id in g.edges && g.edges[id] == e
    {
      assert g.store[x].children == DerivedChildren(g.edges, x);
      assert g.store[x].parents == DerivedParents(g.edges, x);
      assert g.store[x].undirected == DerivedUndirected(g.edges, x);
    }
  }

  /** In a consistent graph, an edge a live node files touches that node. */
  lemma FiledEdgeTouches(g: Graph, x: string, k: string)
    requires Consistent(g) && x in g.nodes && k in g.edges && k in Incident(g.store[x])
    ensures g.edges[k].origin == x || g.edges[k].target == x
  {
    if k in g.store[x].children {
      assert k in DerivedChildren(g.edges, x);
    } else if k in g.store[x].parents {
      assert k in DerivedParents(g.edges, x);
    } else {
      assert k in DerivedUndirected(g.edges, x);
    }
  }

  /** The nodes `rank` ranks are closed under child edges, and `rank` strictly
      decreases along each of those edges: no cycle of child edges is
      reachable from a ranked node. Unranked nodes are not constrained. */
  ghost predicate Ranked(s: map<string, GraphNode>, rank: map<string, nat>)
  {
    forall x, id | x in s && x in rank && id in s[x].children ::
      && s[x].children[id].target in s
      && s[x].children[id].target in rank
      && rank[s[x].children[id].target] < rank[x]
  }

  /** `s2` is `s1` with adjacency entries possibly removed and nothing else changed. */
  predicate Shrinks(s1: map<string, GraphNode>, s2: map<string, GraphNode>)
  {
    && s2.Keys == s1.Keys
    && (forall x | x in s1 ::
          && SameButAdjacency(s1[x], s2[x])
          && SubMap(s2[x].children, s1[x].children)
          && SubMap(s2[x].parents, s1[x].parents)
          && SubMap(s2[x].undirected, s1[x].undirected))
  }

  /** Every ranked node's children map in `s2` is a submap of its children map in `s1`. */
  ghost predicate ChildrenWithin(s2: map<string, GraphNode>, s1: map<string, GraphNode>, rank: map<string, nat>)
  {
    s2.Keys == s1.Keys && forall x | x in s1 && x in rank :: SubMap(s2[x].children, s1[x].children)
  }

  /** Removing adjacency entries keeps a store ranked and tidy. */
  lemma ShrinksKeeps(s1: map<string, GraphNode>, s2: map<string, GraphNode>, rank: map<string, nat>,
                     within: set<string>)
    requires Shrinks(s1, s2)
    ensures ChildrenWithin(s2, s1, rank)
    ensures Ranked(s1, rank) ==> Ranked(s2, rank)
    ensures Tidy(s1, within) ==> Tidy(s2, within)
  {
    assert forall x, id, e | x in s2 && Holds(s2[x], id, e) :: Holds(s1[x], id, e);
  }

  /** `y` is reachable from `x` by one or more child edges of `s`. */
  ghost predicate Descends(s: map<string, GraphNode>, rank: map<string, nat>, x: string, y: string)
    requires Ranked(s, rank)
    decreases if x in rank then rank[x] else 0
  {
    x in s && x in rank &&
    exists id | id in s[x].children ::
      s[x].children[id].target == y || Descends(s, rank, s[x].children[id].target, y)
  }

  lemma ShrinksTransitive(s1: map<string, GraphNode>, s2: map<string, GraphNode>, s3: map<string, GraphNode>)
    requires Shrinks(s1, s2) && Shrinks(s2, s3)
    ensures Shrinks(s1, s3)
  {
    forall x | x in s1
      ensures SameButAdjacency(s1[x], s3[x])
    {
      assert s1[x].(children := s3[x].children, parents := s3[x].parents, undirected := s3[x].undirected)
          == s2[x].(children := s3[x].children, parents := s3[x].parents, undirected := s3[x].undirected);
    }
  }

  /** Reachability only shrinks when children maps shrink. */
  lemma {:induction false} DescendsWithin(s1: map<string, GraphNode>, s2: map<string, GraphNode>,
                                         rank: map<string, nat>, x: string, y: string)
    requires Ranked(s1, rank) && Ranked(s2, rank) && ChildrenWithin(s2, s1, rank)
    requires Descends(s2, rank, x, y)
    ensures Descends(s1, rank, x, y)
    decreases if x in rank then rank[x] else 0
  {
    var id :| id in s2[x].children &&
      (s2[x].children[id].target == y || Descends(s2, rank, s2[x].children[id].target, y));
    var t := s2[x].children[id].target;
    assert id in s1[x].children && s1[x].children[id].target == t;
    if t != y {
      DescendsWithin(s1, s2, rank, t, y);
    }
  }

  /** Every proper descendant has a smaller rank, so no node descends from itself. */
  lemma {:induction false} DescendsLowersRank(s: map<string, GraphNode>, rank: map<string, nat>, x: string, y: string)
    requires Ranked(s, rank) && Descends(s, rank, x, y)
    ensures x in rank && y in rank && rank[y] < rank[x]
    decreases if x in rank then rank[x] else 0
  {
    var id :| id in s[x].children &&
      (s[x].children[id].target == y || Descends(s, rank, s[x].children[id].target, y));
    var t := s[x].children[id].target;
    if t != y {
      DescendsLowersRank(s, rank, t, y);
    }
  }

  /** Every id a node of `g`'s store files in one of its maps, but no longer
      files in that map in `r`'s store, has left `r`'s edge table. */
  ghost predicate DropsLeaveTable(g: Graph, r: Graph)
  {
    && (forall x, id | x in g.store && x in r.store && id in g.store[x].children && id !in r.store[x].children ::
          id !in r.edges)
    && (forall x, id | x in g.store && x in r.store && id in g.store[x].parents && id !in r.store[x].parents ::
          id !in r.edges)
    && (forall x, id | x in g.store && x in r.store && id in g.store[x].undirected && id !in r.store[x].undirected ::
          id !in r.edges)
  }

  /** `k` is filed by some descendant of `n`. */
  ghost predicate FiledBelow(s: map<string, GraphNode>, rank: map<string, nat>, n: string, k: string)
    requires Ranked(s, rank)
  {
    exists x | Descends(s, rank, n, x) :: x in s && k in Incident(s[x])
  }

  /** Filing below a node only shrinks when adjacency shrinks. */
  lemma FiledBelowWithin(s1: map<string, GraphNode>, s2: map<string, GraphNode>, rank: map<string, nat>,
                         n: string, k: string)
    requires Ranked(s1, rank) && Ranked(s2, rank) && Shrinks(s1, s2)
    requires FiledBelow(s2, rank, n, k)
    ensures FiledBelow(s1, rank, n, k)
  {
    var x :| Descends(s2, rank, n, x) && x in s2 && k in Incident(s2[x]);
    ShrinksKeeps(s1, s2, rank, {});
    DescendsWithin(s1, s2, rank, n, x);
  }
}

=== FILE: nodes.dfy ===
/** Node construction, movement and box-size arithmetic. */
module Nodes {
  import opened Geometry
  import opened Style
  import opened Model

  const DefaultWidth: real := 50.0
  const DefaultHeight: real := 50.0
  const DefaultPadding: real := 10.0

  /** A fresh node with default sizes and theme colours and no edges. The
      node is only created; filing it in the graph is `AddNode`. `innerMin`
      is the minimum size of the inner object (the node's label). */
  function NewGraphNode(id: string, innerMin: Size, theme: Theme): (w: GraphNode)
    ensures w.id == id && w.innerMin == innerMin
    ensures w.innerSize == Size(DefaultWidth, DefaultHeight) && w.padding == DefaultPadding
    ensures w.boxStrokeWidth == 1.0 && w.handleStroke == 3.0
    ensures w.boxFillColor == theme.background
    ensures w.boxStrokeColor == theme.foreground && w.handleColor == theme.foreground
    ensures Incident(w) == {}
  {
    GraphNode(id, Origin, Size(0.0, 0.0), Size(DefaultWidth, DefaultHeight), innerMin, DefaultPadding,
              1.0, theme.background, theme.foreground, theme.foreground, 3.0,
              map[], map[], map[])
  }

  /** Files a node object in the `Nodes` map under its own id. */
  function AddNode(g: Graph, w: GraphNode): (r: Graph)
    ensures r.nodes == g.nodes + {w.id} && r.edges == g.edges && r.link == g.link && r.mouse == g.mouse
    ensures w.id in r.store && r.store[w.id] == w
    ensures forall k | k in g.store && k != w.id :: k in r.store && r.store[k] == g.store[k]
  {
    g.(store := g.store[w.id := w], nodes := g.nodes + {w.id})
  }

  /** Adding a new edgeless node under an unused id keeps the graph consistent. */
  lemma AddNodeKeepsConsistent(g: Graph, w: GraphNode)
    requires Consistent(g)
    requires w.id !in g.nodes
    requires Incident(w) == {}
    ensures Consistent(AddNode(g, w))
  {
    var r := AddNode(g, w);
    forall k | k in r.nodes
      ensures r.store[k].children == DerivedChildren(r.edges, k)
      ensures r.store[k].parents == DerivedParents(r.edges, k)
      ensures r.store[k].undirected == DerivedUndirected(r.edges, k)
    {
      if k == w.id {
        assert DerivedChildren(r.edges, k) == map[] by {
          forall id | id in r.edges ensures !(r.edges[id].directed && r.edges[id].origin == k) {
            assert r.edges[id].origin in g.nodes;
          }
        }
        assert DerivedParents(r.edges, k) == map[] by {
          forall id | id in r.edges ensures !(r.edges[id].directed && r.edges[id].target == k) {
            assert r.edges[id].target in g.nodes;
          }
        }
        assert DerivedUndirected(r.edges, k) == map[] by {
          forall id | id in r.edges ensures r.edges[id].origin != k && r.edges[id].target != k {
            assert r.edges[id].origin in g.nodes && r.edges[id].target in g.nodes;
          }
        }
      }
    }
  }

  /** Moves a node by `d`, touching nothing else. */
  function Displace(w: GraphNode, d: Vec): (r: GraphNode)
    ensures r.position.x == w.position.x + d.x && r.position.y == w.position.y + d.y
    ensures r.(position := w.position) == w
  {
    w.(position := Add(w.position, d))
  }

  /** The size the inner object is laid out at: the requested inner size,
      grown to the inner object's minimum where that is larger. */
  function EffectiveInnerSize(w: GraphNode): Size
  {
    Max(w.innerSize, w.innerMin)
  }

  /** The node's box size (the renderer's minimum size and the box used to
      anchor edges): the effective inner size plus padding on every side. */
  function BoxSize(w: GraphNode): (s: Size)
    ensures s.width >= w.innerSize.width + 2.0 * w.padding
    ensures s.width >= w.innerMin.width + 2.0 * w.padding
    ensures s.width == w.innerSize.width + 2.0 * w.padding || s.width == w.innerMin.width + 2.0 * w.padding
    ensures s.height >= w.innerSize.height + 2.0 * w.padding
    ensures s.height >= w.innerMin.height + 2.0 * w.padding
    ensures s.height == w.innerSize.height + 2.0 * w.padding || s.height == w.innerMin.height + 2.0 * w.padding
  {
    var inner := EffectiveInnerSize(w);
    Size(inner.width + 2.0 * w.padding, inner.height + 2.0 * w.padding)
  }
}

=== FILE: style.dfy ===
/** The relationship taxonomy and the relationship-to-colour policy of edges. */
module Style {

  newtype Byte = x: int | 0 <= x < 256

  datatype RGBA = RGBA(r: Byte, g: Byte, b: Byte, a: Byte)

  /** The ambient UI theme colours the engine reads, passed in explicitly. */
  datatype Theme = Theme(foreground: RGBA, background: RGBA)

  // Relationship kinds; "cohabatiation" is spelled as the program spells it.
  const MarriedRel := "married"
  const ChildRel := "child"
  const SeparationRel := "separated"
  const CohabatiationRel := "cohabatiation"
  const DistantRel := "distant"
  const FriendRel := "friend"
  const HostileRel := "hostile"
  const AbuseRel := "abuse"

  /** The relationships that have a colour of their own. */
  const Palette: map<string, RGBA> := map[
    SeparationRel := RGBA(80, 1, 1, 255),
    CohabatiationRel := RGBA(8, 6, 151, 255),
    FriendRel := RGBA(15, 91, 5, 255),
    HostileRel := RGBA(215, 38, 6, 255),
    AbuseRel := RGBA(6, 215, 183, 255)
  ]

  /** The colour an edge of relationship `rel` is drawn in: a fixed colour for
      the five styled kinds, the theme foreground for every other string. */
  function SelectColor(rel: string, foreground: RGBA): (c: RGBA)
    ensures rel in Palette ==> c == Palette[rel]
    ensures rel !in Palette ==> c == foreground
  {
    match rel
    case "separated" => RGBA(80, 1, 1, 255)
    case "cohabatiation" => RGBA(8, 6, 151, 255)
    case "friend" => RGBA(15, 91, 5, 255)
    case "hostile" => RGBA(215, 38, 6, 255)
    case "abuse" => RGBA(6, 215, 183, 255)
    case _ => foreground
  }

  /** Married, child and distant edges, and unknown kinds, take the foreground. */
  lemma UnstyledKindsUseForeground(rel: string, foreground: RGBA)
    requires rel in {MarriedRel, ChildRel, DistantRel} || rel !in Palette
    ensures SelectColor(rel, foreground) == foreground
  {
  }
}
